=== FILE: README.md ===
# QR attendance engine — a Dafny model

This project models the decision core of a QR-code classroom attendance
application (`application.py`). Lectures follow a day's timetable of "HH:MM"
breakpoints. A faculty member starts a lecture by scanning a per-day numeric
session token. The token is derived from the faculty code with a date salt,
SHA-256 and a modulus. Students then scan identity codes, and the rendered
list of their record fields is looked up in a roll-sorted store by binary
search. The monitor loop checks the clock on every frame:

- it warns a fixed number of minutes before a slot ends;
- it flushes the lecture when the slot ends;
- it stops outside the timetable.

A flush files the host and attendees in a day's ledger under a
"subject (start-end)" key.

Modules follow the program's classes:

| file | module | source class |
|---|---|---|
| `base.dfy` | `Base` | `Option`, `Result` and the Python exceptions that escape (`Fault`) |
| `text.dfy` | `Text` | `int()`, `str()`, string order, and `str(list)` with its parse |
| `faculty.dfy` | `Faculty` | `Faculty` (token derivation and `auth`) and `Token.generate_session` |
| `student.dfy` | `Student` | `Student.read_db` and `Student.validate` |
| `timetable.dfy` | `Timetable` | `Timer`, and `Scheduler.structure` / `Scheduler.lecture` |
| `session.dfy` | `Session` | the `Attribute` state and `Utility`: `warn`, `auth`, `attend`, `flush`, `export_attendance` and the key split of `Export.export` |
| `monitor.dfy` | `Monitor` | `Monitor`: `time_check`, `processor`, `stop_monitor`, `monitor_trigger` and the `monitor_cam` loop |

Modelling conventions:

- Every operation is a pure function of a `State` record.
- An exception that escapes to the top is an `Err(fault)` result and ends the run.
- The clock is a parameter: microseconds since midnight plus the weekday.
- SHA-256 is a parameter `hash: string -> nat`, already read as a big-endian integer.
- The camera and QR decoder become the `Scan` of one frame.
- The faculty module keeps a "remembered holder" dict (`session_faculty`), and the monitor keeps `host_faculty`. The program aliases the two, and `flush` clears them in place. The model therefore keeps a single `host` cell.

## Model

| member | source | states |
|---|---|---|
| Text.ParseInt | application.py:171 | `int()` of a field succeeds exactly when it is a non-empty string of ASCII digits; every other string raises |
| Text.Decimal | application.py:108 | `str(n)` is a digit string that reads back as `n`, with no leading zero except for `n == 0` itself |
| Text.DecimalLengthMonotone | application.py:108 | a smaller number never has a longer decimal form, so a token below the limit is never longer than `str(limit)` |
| Text.DecimalParses | application.py:116 | `int(str(n)) == n` |
| Text.LexIsNumeric | application.py:154 | for digit strings of one length, Python's string order and numeric order agree, in both directions |
| Text.Quote | application.py:204 | `repr` of a field is at least two characters longer than the field, and a field without a single quote is enclosed in single quotes |
| Text.QuotePlain | application.py:204 | a field of printable ASCII without quote or backslash is rendered by `repr` as itself in single quotes, with nothing escaped |
| Text.PayloadRoundTrip | application.py:1135 | the processor's `strip('][')`, quote removal and `split(', ')` give back exactly the fields that `str(list(values))` rendered, for fields of printable ASCII without quote, backslash or ", " |
| Text.BackslashDoubled | application.py:1135 | a backslash in a field comes back from the rendering and parse doubled, so the parsed field differs from the stored one |
| Text.RenderNotDigits | application.py:1134 | a rendered identity payload is never all digits, so it is never taken for a token |
| Faculty.DateSalt | application.py:66 | the salt is month + day + year, so for any real date it lies between year + 2 and year + 43 |
| Faculty.SameSaltSameSessions | application.py:66-102 | two dates of one year whose month and day have the same sum derive the same sessions for every faculty member |
| Faculty.Mangle | application.py:90 | the mangler keeps the three-letter prefix and carries suffix × salt in decimal; it fails exactly when the suffix is empty or not numeric |
| Faculty.DeriveToken | application.py:90-102 | a token exists exactly when the mangler can be built and the modulus is positive, and it is then below the modulus; a zero modulus raises ZeroDivisionError |
| Faculty.GenerateSessions | application.py:84-102 | the load succeeds exactly when every faculty code derives a token; it then keeps every record, in order, each carrying its own derived token |
| Faculty.MailTokens | application.py:245-283 | tokens are mailed in file order as decimal payloads to each record's address; a failing code stops the mailing after exactly the earlier records, with that code's exception; there is no failure exactly when the load itself succeeds |
| Faculty.Gate | application.py:108 | a token that passes the length and digit gate is a digit string whose value is below 10 to the number of digits of the limit; the processor applies the same test at application.py:1120 |
| Faculty.Remember | application.py:121-123 | the holder becomes the record found; a record is granted exactly when one was found and it differs from the previous holder |
| Faculty.FirstFrom | application.py:115-118 | the scan finds the first record whose session equals the token, or reports that none does |
| Faculty.Auth | application.py:105-123 | a token failing the length/digit gate or the pre-filter changes nothing; otherwise the holder becomes the first matching record (or nothing), and a record is granted exactly when it differs from the previous holder |
| Faculty.TokenPassesGate | application.py:108 | the decimal form of any token below the limit passes the length and digit gate and reads back as the token |
| Faculty.MailedTokenAuthenticates | application.py:105-123 | scanning `str(session)` of any record whose session is below the limit (as every loaded record's is), with no holder, grants a record with that session, namely that record unless an earlier one collides |
| Student.ReadDb | application.py:154 | loading yields a permutation of the file's records, ascending by raw roll string |
| Student.ReadDbNumericOrder | application.py:154 | when every roll is a digit string of one width, the loaded store is ascending by `int(roll)` |
| Student.ReadDbStrict | application.py:154 | a file of digit-string rolls of one width with no roll number repeated loads into a store strictly ascending by `int(roll)`, the order on which `Student.Find` finds every record |
| Student.RepeatedRollMissed | application.py:157-182 | three records sharing roll 1 form a numerically sorted store, yet the corrected search for the first misses it, and the as-written window 0..2 repeats |
| Student.MixedWidthRollsMisorder | application.py:154 | with rolls "9" and "10" the string sort puts "10" first; the store is then not numerically sorted and the search misses roll 9 |
| Student.FindIn | application.py:165-182 | a result is always a record of the store with the queried number and name; a non-numeric query raises; on a strictly ascending store with no match outside the window, a record is found exactly when one matches |
| Student.Find | application.py:157-186 | an empty store answers nothing; a non-numeric query raises; on a strictly ascending store, a record is found exactly when some record has that roll number and that exact name |
| Student.Validate | application.py:157-186 | the iterative binary search computes the same answer as the recursive search `Find` |
| Student.FindsEveryRecord | application.py:157-186 | every record of a strictly ascending store is found by its own roll and name |
| Student.PyIndex | application.py:168-171 | Python list indexing succeeds exactly for indices from `-n` to `n-1`, and then selects position `i mod n`, so a negative index counts from the end |
| Student.LiteralStep | application.py:165-182 | one call of the as-written search: an empty window misses; a probe past the list raises IndexError; a non-numeric query raises ValueError; a hit is a matching record of the store; otherwise the next window contains the probe and keeps one of its two ends |
| Student.LiteralWindowNeverShrinks | application.py:174-182 | with the as-written updates, a window of width at most three never narrows |
| Student.LiteralValidateDiverges | application.py:174-182 | the as-written search on rolls "1","2", queried for the second record, repeats the window `-1..1` forever, while `Find` returns the record |
| Student.LiteralEscapedLoops | application.py:165-182 | the as-written search on one record named `A\B`, queried with the doubled name `A\\B` its identity code carries, moves the window 0..0 to -1..0 and then to -2..0, which repeats forever |
| Student.LiteralTenNineLoops | application.py:154-182 | the store loaded from rolls "9" and "10" is "10" then "9"; the as-written search for roll 9 probes "10", larger, and keeps the window 0..1 forever |
| Timetable.Slots | application.py:303-307 | slot `i` is the pair of breakpoints `i` and `i+1`; there is one slot fewer than breakpoints, and each slot ends where the next begins |
| Timetable.CharIndex | application.py:319-322 | `str.index` returns the first occurrence, and fails exactly when the character is absent |
| Timetable.ParseClock | application.py:319-325 | a parsed "HH:MM" is a whole-minute time within the day; text without a colon raises |
| Timetable.ClockRoundTrip | application.py:319-325 | every two-digit "HH:MM" with hour < 24 and minute < 60 parses to exactly that hour and minute |
| Timetable.SeqIndex | application.py:330 | `list.index` returns the first position holding the slot |
| Timetable.ScanFrom | application.py:315-330 | the scan returns the first slot strictly containing `now`, with its end and index; it returns nothing exactly when every slot parses and none contains `now`; it raises exactly when a slot fails to parse before any slot containing `now` is reached |
| Timetable.LectureTime | application.py:310-332 | the same facts for the whole day: the hit is breakpoints `i`, `i+1`, every earlier slot is clear; nothing is returned exactly when all slots are clear; ValueError is raised exactly when a malformed slot comes before any slot containing `now` |
| Timetable.BetweenBreakpoints | application.py:328 | on a day whose breakpoints parse and increase, any time strictly between breakpoints `k` and `k+1` falls in slot `k`, which ends at breakpoint `k+1` |
| Timetable.BreakpointInstantHasNoSlot | application.py:328 | on such a day, the instant of a breakpoint lies in no slot, because containment is strict |
| Timetable.TimetableExample | application.py:306-330 | with breakpoints 09:00, 10:00, 11:15: 09:30 is slot 0 (ending 10:00), 10:00 is no slot, 10:15 is slot 1 (ending 11:15) |
| Timetable.Lecture | application.py:382-391 | a missing section raises KeyError; a weekday or lecture index past its list gives nothing; otherwise the subject at that position |
| Session.Initial | application.py:729-737 | the initial attributes: nothing authenticated, warned or flushed, no host, no attendees, an empty ledger, no lecture time, lecture number 0; they satisfy the session invariant |
| Session.Warn | application.py:815-819 | warning marks the lecture warned and re-arms its flush; nothing else changes |
| Session.Authenticate | application.py:885-889 | authentication records the host and sets the flag; the warning and flush flags are untouched |
| Session.Attend | application.py:903-906 | the attendee is present afterwards; a new one is appended at the end, and one already present changes nothing; the list stays duplicate-free |
| Session.ExportSplit | application.py:465-469 | the export succeeds exactly when the key has a `(` with a `-` somewhere after it, and raises ValueError otherwise. The slot is the key from its first `(`. The start is the slot's text strictly between that `(` and the slot's first `-`. The title is the key before the character preceding the slot, or `key[:-1]` when the key begins with `(` |
| Session.KeySplitRecovers | application.py:868-869 | a ledger key built from a subject and a slot splits back into that subject, the bracketed slot and its start |
| Session.SlotZeroKeyRaises | application.py:465 | a lecture flushed while the lecture time is still the initial empty list gets the key "subject []", whose export raises |
| Session.LedgerKey | application.py:868-869 | the key is the subject, a space, then the slot; it contains a `(` after the subject exactly when a lecture time was recorded |
| Session.Subject | application.py:862-869 | the subject is the timetable entry for the section, weekday and lecture number; a missing section raises KeyError; a missing weekday or lecture entry makes `subject + ' '` raise TypeError |
| Session.Flush | application.py:822-856 | unauthenticated, flush changes nothing. Authenticated with a host, it raises exactly when the subject or key export fails, and otherwise files copies of host and attendees under the lecture's key. In both authenticated cases it clears host, attendees and authentication, marks the lecture flushed, and keeps the session invariant |
| Session.FlushIdempotent | application.py:825-826 | flushing again right after a successful flush changes nothing |
| Session.FlushRecordsLecture | application.py:835-843 | the entry a flush writes holds exactly the closed lecture's host and attendees, under a key that splits back into its subject and slot |
| Monitor.StopMonitor | application.py:1008-1040 | stopping clears the running flag, flushes a lecture that has a host, and reports the ledger exactly when it is non-empty; under the invariant it fails exactly when that flush fails, and it leaves no lecture authenticated |
| Monitor.Enter | application.py:1062-1076 | entering slot `k` sets the lecture number to `k`; a change of slot records the new slot and clears the warning; nothing else changes and the invariant is kept |
| Monitor.Tick | application.py:1056-1096 | outside every slot the monitor halts through `stop_monitor`: it flushes a held lecture and reports the ledger, or fails as that fails. Inside slot `k`, the lecture number becomes `k`, and a change of slot records the new slot and clears the warning. The warning fires exactly when it is due and not yet given for this slot, and then only the warning happens. Otherwise, at the slot end of a lecture not yet flushed, the flush runs and the tick fails exactly when it fails; in every other case nothing else happens. The invariant is kept |
| Monitor.Identify | application.py:1134-1141 | a payload with fewer than two fields yields nothing; a found student is in the store with the payload's roll and name; a non-numeric roll raises when the store is non-empty |
| Monitor.Process | application.py:1099-1147 | only authentication, host and attendees can change. Authentication starts only from an idle session through the gate and `Faculty.auth`. A numeric payload during a lecture changes nothing. Attendees change only by appending a newly validated student. The invariant is kept |
| Monitor.MailedTokenStartsLecture | application.py:1120-1127 | from an idle session, scanning the token of a record whose session is below the limit starts a lecture hosted by a record with that session: that record unless an earlier one collides |
| Monitor.ScanAttendsStudent | application.py:1134-1147 | during a lecture, scanning a student's own identity code attends that student |
| Monitor.ProcessIdempotent | application.py:1118-1147 | scanning the same code twice in a row has the same effect as scanning it once |
| Monitor.EscapedNameNotAttended | application.py:1134-1147 | a student whose name holds a backslash scans their own code in vain: the doubled name matches no record and the session is unchanged |
| Monitor.TwoStudentsAttend | application.py:1143-1147 | two different students scanned in turn are both attended, in scan order, and nothing else changes |
| Monitor.HappyPath | application.py:1056-1147 | a faculty token below the limit, two student scans, and then a tick at the end of the slot that flushes (signalling only the flush) file exactly that host and those two attendees under the lecture's key, and leave the session idle |
| Monitor.Sense | application.py:975-1106 | the scan part of an iteration, on the flipped frame (application.py:976), never touches the warning or lecture number. A frame whose decoder finds no code changes nothing. When `decode` raises TypeError (application.py:1103-1106), the loop ends through `stop_monitor`, with its flush and report. The invariant is kept |
| Monitor.Step | application.py:967-1052 | a stopped monitor ignores frames and a trigger starts it, changing nothing else. A trigger while running halts it through `stop_monitor`. A frame in slot `k` sets the lecture number to `k` and fires the warning at most once, and not at all when it was already given for `k`; the warning flag says whether it fired. The invariant is kept |
| Monitor.Run | application.py:967-1005 | a run over any event sequence that raises nothing keeps the session invariant |
| Monitor.WarnOncePerSlot | application.py:1068-1094 | over any frames that all fall in slot `k`, the warning fires at most once, and not at all when it was already given for slot `k` |

## Left out

- Faculty.DeriveToken: the token limit is a natural number. A negative `token_limit`, which `getint` accepts (application.py:718), makes Python's `%` yield sessions in `(limit, 0]`; their `str()` starts with `-`, fails `isdigit`, and no token can match them. That case is not modelled.
- SHA-256 and `int.from_bytes` are the parameter `hash`; the date salt is a number given to the derivation, so reading the date and a date rollover are not modelled.
- Faculty.Auth: the substring pre-filter `str(token) in str(database)` is the boolean `listed`. Only its rejecting role is modelled, because its outcome depends on the printed form of the whole faculty file.
- Text.ParseInt: Python's `int()` also accepts surrounding whitespace, a sign, underscores and non-ASCII digits, and `isdigit()` accepts non-ASCII digits. The model accepts ASCII digit strings only.
- Text.Quote: `repr` is modelled for ASCII: quote choice, escaped backslash and quote, `\t \n \r` by name and other control characters as `\xNN`. Characters above 127 are kept as they are, while Python escapes those the Unicode database calls non-printable.
- Monitor.Identify: the monitor looks students up with the corrected search `Student.Find`, not the search as written (see "## Findings"). As written, `validate` (application.py:168-182, called at 1139) recurses forever on some stores. An example is rolls "1" (A) and "2" (B) scanned with "['2', 'B']": the window -1..1 repeats (`Student.LiteralValidateDiverges`). Python then raises RecursionError. `processor` catches only IndexError and the loop has no handler, so the program stops where the model attends the student.
- Monitor.ScanAttendsStudent: attendance is proved for the corrected search only; with the search as written the scan can end in the RecursionError described for `Monitor.Identify`.
- Monitor.TwoStudentsAttend: attendance is proved for the corrected search only, as for `Monitor.ScanAttendsStudent`.
- Monitor.HappyPath: the two attendances are proved for the corrected search only, as for `Monitor.ScanAttendsStudent`.
- Student.Values: an identity code carries `list(record.values())` in the JSON object's key order. The model takes `Roll_Number` and `Name` to be its first two keys, in that order, and every value to be a string. With another key order the program passes the wrong field to `int()` and raises ValueError, or misses the student. A number in the file is rendered without quotes, and `read_db` would then sort rolls numerically.
- Text.PayloadRoundTrip, Monitor.ScanAttendsStudent, Monitor.TwoStudentsAttend, Monitor.HappyPath: these cover identity fields of printable ASCII without a quote, a backslash or ", ". A backslash comes back doubled and the student is not attended (`Monitor.EscapedNameNotAttended`). A quote is removed by the parse. A field holding ", " is split. Non-ASCII text depends on the Unicode database.
- Session.Attend: the source tests `str(attendee) not in str(attendees)`, a substring test; the model tests list membership, the test it stands for.
- Session.LedgerKey: the closed form "subject (start-end)" of the `str(list)` replacement chain assumes breakpoints free of quotes and backslashes.
- The clock is read once per tick. The source calls `datetime.now()` several times within one `time_check` and `lecture_time`.
- The sheet-name truncation `key[:25]`, the removal of `:` from the start time, worksheet-name rules and duplicate sheets of the Excel writer are not modelled. Neither are the workbook contents.
- Mail delivery, QR image generation, beeps, printing, on-frame text, the Qt window, `college_over`, holiday checks and camera capture are left out as I/O.
- Reading the JSON and configuration files, and the exit codes on missing files, are left out. The model takes the loaded records, breakpoints and lecture table as inputs.
- The weekday's entry of the lecture file is its position in file order (`list(keys())[weekday]`). The model takes the days of a section as a sequence.
- `isTokenGenerated` is set and never read, and `student_list` (cleared by `flush`) is not read by the core, so neither is modelled.
- Scheduler.structure's `timing['start']` list is the same list of slots as `Timer`'s, so `Timetable.Slots` stands for both. It also gives the columns and column widths of the schedule workbook (application.py:415-416, 423); that workbook is left out with the other Excel output.
- Monitor.Process: the faculty holder and `host_faculty` are one cell. The two dicts part only in states the session invariant excludes.
- The monitor's restart after a stop is the `Trigger` event; the call-stack nesting of `monitor_cam` inside `processEvents` is not modelled.
- Monitor.EscapedNameNotAttended: the unchanged session is what the corrected search gives. As written, `validate` on a one-record store queried with the doubled name moves the window 0..0 to -2..0 and repeats it (`Student.LiteralEscapedLoops`); Python raises RecursionError, which `processor` does not catch (application.py:1140), so the program stops instead.
- Student.MixedWidthRollsMisorder: the miss is what the corrected search gives. As written, the search for roll 9 on the store "10", "9" keeps the window 0..1 (`Student.LiteralTenNineLoops`) and ends in RecursionError, which stops the program.
- Student.ReadDbStrict: a file that repeats a roll number is not covered. Such a store can be numerically sorted and still hide a record from the search (`Student.RepeatedRollMissed`).
- Monitor.Sense: a failed capture, which makes `cv2.flip` raise before `processor` (application.py:975-976), is not modelled; the scan is what the decoder reports on the flipped frame.
- Student.LiteralStep: the Python recursion limit is not modelled; the as-written search is shown to repeat a window, which is what exhausts it.

## Behaviour the model keeps

Each of these behaviours of the code is kept in the model, although the comments in the code suggest otherwise or a reader might expect otherwise. The one place where the monitor departs from the code is the student search: it uses the corrected search, as `Monitor.Identify` under "## Left out" and "## Findings" say.

- A non-numeric roll field in a scanned payload raises ValueError from `int()` at application.py:171. The comment at application.py:1137 says bad input is ignored, but only IndexError is caught, so the ValueError is not a silent "no match".
- `read_db` sorts by the raw roll string (application.py:154), not by the number that the comment at application.py:153 names. The order is numeric only when all rolls have one width (`Student.ReadDbNumericOrder`, `Student.MixedWidthRollsMisorder`), and strictly ascending when no roll number repeats as well (`Student.ReadDbStrict`).
- Two records sharing a roll number are allowed by `read_db`, but the search compares names only at the probe, so it can miss one of them (`Student.RepeatedRollMissed`).
- Slots are adjacent breakpoint pairs, so the timetable cannot express a gap between lectures. Containment is strict at both ends, so a breakpoint instant is in no slot and stops the monitor.
- `Utility.auth` does not reset the warning or flush flags; only a change of slot clears the warning.

## Findings

| source | as written | input that shows it | evidently intended | confidence | as-written member | corrected member |
|---|---|---|---|---|---|---|
| application.py:174-182 | the left half is searched with `right_index=mid+1` and the right half with `left_index=mid-1` | store rolls "1" (A) and "2" (B), query roll "2" name "B": window 0..1 becomes -1..1, then -1..1 again forever, ending in a RecursionError | `right_index=mid-1` for the left half and `left_index=mid+1` for the right half | high; not executed | Student.LiteralValidateDiverges | Student.Find |

=== FILE: base.dfy ===
/** Failure-carrying datatypes shared by every part of the attendance engine. */
module Base {

  /** Python's "a value or nothing" (a falsy return, an empty dict, `None`). */
  datatype Option<+T> = None | Some(value: T)

  /** The Python exceptions that escape the engine and end the run. */
  datatype Fault =
    | ValueError   // `int()` of a non-numeric string, `str.index` with no match, a bad clock time
    | TypeError    // `None + ' '` when no subject is scheduled
    | KeyError     // a section name missing from the lecture table
    | ZeroDivisionError  // a token limit of zero used as a modulus

  /** Either a value or the exception that was raised while computing it. */
  datatype Result<+T> = Ok(value: T) | Err(fault: Fault)
}

=== FILE: faculty.dfy ===
/**
 * Faculty session tokens: the per-day derivation of `Faculty.generate_sessions`,
 * its duplicate in `Token.generate_session`, and the check `Faculty.auth`
 * performs on a scanned token.
 *
 * SHA-256 is a foreign call: it is the parameter `hash`, already read as a
 * big-endian unsigned integer (`int.from_bytes(digest, 'big')`).
 */
module Faculty {
  import opened Base
  import opened Text

  /** One entry of the faculty file: `{Code, Name, Email}`. */
  datatype Identity = Identity(code: string, name: string, email: string)

  /** A faculty entry after `generate_sessions` added today's `session` number. */
  datatype FacultyRecord = FacultyRecord(id: Identity, session: nat)

  /**
   * The date salt: month, day and year added together.  Over a calendar
   * year it spans only 42 values.
   */
  function DateSalt(month: nat, day: nat, year: nat): (salt: nat)
    ensures 1 <= month <= 12 && 1 <= day <= 31 ==> year + 2 <= salt <= year + 43
  {
    month + day + year
  }

  /**
   * Two dates of one year whose month and day add up alike -- 2 January and
   * 1 February, say -- get the same salt, and so every faculty member gets
   * the same token on both.
   */
  lemma SameSaltSameSessions(ids: seq<Identity>, m1: nat, d1: nat, m2: nat, d2: nat, year: nat,
                             limit: nat, hash: string -> nat)
    requires m1 + d1 == m2 + d2
    ensures GenerateSessions(ids, DateSalt(m1, d1, year), limit, hash) ==
            GenerateSessions(ids, DateSalt(m2, d2, year), limit, hash)
  {
    var salt := DateSalt(m1, d1, year);
    assert salt == DateSalt(m2, d2, year);
  }

  /**
   * The mangler `code[:3] + str(int(code[3:]) * salt)`: the three-letter
   * prefix kept, the numeric suffix multiplied by the salt.  `int()` raises
   * unless the suffix is a non-empty digit string.
   */
  function Mangle(code: string, salt: nat): (r: Result<string>)
    ensures r.Ok? <==> |code| > 3 && IsDigitString(code[3..])
    ensures r.Ok? ==> |r.value| > 3 && r.value[..3] == code[..3]
    ensures r.Ok? ==> IsDigitString(r.value[3..]) && Value(r.value[3..]) == Value(code[3..]) * salt
  {
    if |code| > 3 && IsDigitString(code[3..]) then
      var digits := Decimal(Value(code[3..]) * salt);
      var m := code[..3] + digits;
      assert m[3..] == digits;
      Ok(m)
    else
      Err(ValueError)
  }

  /**
   * Today's token of one faculty code: the mangler's digest reduced modulo
   * `limit`; a zero limit raises once the mangler has been built.
   */
  function DeriveToken(code: string, salt: nat, limit: nat, hash: string -> nat): (r: Result<nat>)
    ensures r.Ok? <==> Mangle(code, salt).Ok? && limit > 0
    ensures r.Ok? ==> r.value < limit
    ensures Mangle(code, salt).Ok? && limit == 0 ==> r == Err(ZeroDivisionError)
  {
    match Mangle(code, salt)
    case Err(e) => Err(e)
    case Ok(m) => if limit == 0 then Err(ZeroDivisionError) else Ok(hash(m) % limit)
  }

  /**
   * `Faculty.generate_sessions`: every record gets its token, in file order;
   * the first code whose suffix is not numeric raises.
   */
  function GenerateSessions(ids: seq<Identity>, salt: nat, limit: nat, hash: string -> nat)
    : (r: Result<seq<FacultyRecord>>)
    ensures r.Ok? <==> forall i :: 0 <= i < |ids| ==> DeriveToken(ids[i].code, salt, limit, hash).Ok?
    ensures r.Ok? ==> |r.value| == |ids|
    ensures r.Ok? ==> forall i :: 0 <= i < |ids| ==>
      r.value[i].id == ids[i] && r.value[i].session < limit &&
      DeriveToken(ids[i].code, salt, limit, hash) == Ok(r.value[i].session)
    decreases |ids|
  {
    if |ids| == 0 then Ok([])
    else
      match DeriveToken(ids[0].code, salt, limit, hash)
      case Err(e) => Err(e)
      case Ok(t) =>
        match GenerateSessions(ids[1..], salt, limit, hash)
        case Err(e) => Err(e)
        case Ok(rest) => Ok([FacultyRecord(ids[0], t)] + rest)
  }

  /** One token mail: the QR payload `str(session)` sent to a faculty address. */
  datatype Mailing = Mailing(email: string, name: string, payload: string)

  /**
   * `Token.generate_session`: the derivation written out a second time, as
   * the source does, with each token mailed as its decimal QR payload.  A
   * non-numeric code raises after the earlier mails have gone out; `sent`
   * holds those, `fault` the exception.
   */
  method MailTokens(ids: seq<Identity>, salt: nat, limit: nat, hash: string -> nat)
    returns (sent: seq<Mailing>, fault: Option<Fault>)
    ensures fault.None? <==> GenerateSessions(ids, salt, limit, hash).Ok?
    ensures fault.None? ==> |sent| == |ids|
    ensures fault.Some? ==> |sent| < |ids| && DeriveToken(ids[|sent|].code, salt, limit, hash) == Err(fault.value)
    ensures fault.None? ==> forall i :: 0 <= i < |ids| ==>
      sent[i].payload == Decimal(GenerateSessions(ids, salt, limit, hash).value[i].session)
    ensures forall i :: 0 <= i < |sent| ==>
      i < |ids| && sent[i].email == ids[i].email && sent[i].name == ids[i].name &&
      DeriveToken(ids[i].code, salt, limit, hash).Ok? &&
      sent[i].payload == Decimal(DeriveToken(ids[i].code, salt, limit, hash).value)
  {
    sent := [];
    var k := 0;
    while k < |ids|
      invariant 0 <= k <= |ids| && |sent| == k
      invariant forall i :: 0 <= i < k ==>
        DeriveToken(ids[i].code, salt, limit, hash).Ok? &&
        sent[i] == Mailing(ids[i].email, ids[i].name, Decimal(DeriveToken(ids[i].code, salt, limit, hash).value))
    {
      var code := ids[k].code;
      if !(|code| > 3 && IsDigitString(code[3..])) {
        fault := Some(ValueError);
        return;
      }
      var mangler := code[..3] + Decimal(Value(code[3..]) * salt);
      if limit == 0 {
        fault := Some(ZeroDivisionError);
        return;
      }
      var token := hash(mangler) % limit;
      sent := sent + [Mailing(ids[k].email, ids[k].name, Decimal(token))];
      k := k + 1;
    }
    fault := None;
  }

  /**
   * The length and digit test of `Faculty.auth` and of the monitor's token
   * branch.  It bounds a token by the power of ten above the limit, not by
   * the limit itself.
   */
  predicate Gate(token: string, limit: nat)
    ensures Gate(token, limit) ==> IsDigitString(token) && Value(token) < Pow10(|Decimal(limit)|)
  {
    if |token| <= |Decimal(limit)| && IsDigitString(token) then
      ValueBelowPow10(token);
      Pow10Mono(|token|, |Decimal(limit)|);
      true
    else
      false
  }

  /** Record `k` is the first in file order whose session is `v`. */
  ghost predicate FirstMatch(db: seq<FacultyRecord>, v: nat, k: nat)
  {
    k < |db| && db[k].session == v && forall j :: 0 <= j < k ==> db[j].session != v
  }

  lemma FirstMatchUnique(db: seq<FacultyRecord>, v: nat)
    ensures forall k1: nat, k2: nat :: FirstMatch(db, v, k1) && FirstMatch(db, v, k2) ==> k1 == k2
  {
  }

  /** The first-match scan, resumed at `k`. */
  function FirstFrom(db: seq<FacultyRecord>, v: nat, k: nat): (r: Option<nat>)
    requires k <= |db|
    requires forall j :: 0 <= j < k ==> db[j].session != v
    ensures r.Some? ==> FirstMatch(db, v, r.value)
    ensures r.None? ==> forall j :: 0 <= j < |db| ==> db[j].session != v
    decreases |db| - k
  {
    if k == |db| then None
    else if db[k].session == v then Some(k)
    else FirstFrom(db, v, k + 1)
  }

  /**
   * What `Faculty.auth` returns (`granted`, a falsy result as `None`) and the
   * record it remembers afterwards (`holder`, the empty dict as `None`).
   */
  datatype AuthOutcome = AuthOutcome(granted: Option<FacultyRecord>, holder: Option<FacultyRecord>)

  /**
   * `Faculty.auth`.  `listed` is the outcome of the substring pre-filter
   * `str(token) in str(database)`, which can only reject.  After the gate the
   * first record whose session equals `int(token)` (or the empty dict) is
   * compared with the remembered holder: only a different one is remembered
   * and returned.
   */
  function Auth(token: string, limit: nat, listed: bool, db: seq<FacultyRecord>, holder: Option<FacultyRecord>)
    : (r: AuthOutcome)
    ensures !(Gate(token, limit) && listed) ==> r == AuthOutcome(None, holder)
    ensures r.granted.Some? ==>
      Gate(token, limit) && listed && r.holder == r.granted && r.granted != holder &&
      exists k: nat :: FirstMatch(db, Value(token), k) && db[k] == r.granted.value
    ensures Gate(token, limit) && listed ==>
      (r.holder.Some? <==> exists k: nat :: FirstMatch(db, Value(token), k)) &&
      (forall k: nat :: FirstMatch(db, Value(token), k) ==> r.holder == Some(db[k])) &&
      (r.granted.None? <==> r.holder == holder || r.holder.None?)
  {
    if Gate(token, limit) && listed then
      var v := Value(token);
      FirstMatchUnique(db, v);
      match FirstFrom(db, v, 0)
      case None => Remember(None, holder)
      case Some(k) =>
        assert FirstMatch(db, v, k);
        assert exists k': nat :: FirstMatch(db, Value(token), k');
        Remember(Some(db[k]), holder)
    else
      AuthOutcome(None, holder)
  }

  /** `if not str(found) == str(holder)`: only a different record is remembered and returned. */
  function Remember(found: Option<FacultyRecord>, holder: Option<FacultyRecord>): (r: AuthOutcome)
    ensures r.holder == found
    ensures r.granted.Some? <==> found.Some? && found != holder
    ensures r.granted.Some? ==> r.granted == found
  {
    if found != holder then AuthOutcome(found, found) else AuthOutcome(None, holder)
  }

  /** A derived token's decimal form passes the gate and reads back as the token. */
  lemma TokenPassesGate(t: nat, limit: nat)
    requires t < limit
    ensures Gate(Decimal(t), limit) && Value(Decimal(t)) == t
  {
    DecimalLengthMonotone(t, limit);
  }

  /**
   * The mailed token authenticates: scanning `str(session)` of record `i`,
   * with no holder remembered and the pre-filter passed, grants the first
   * record that shares that session -- record `i` itself unless an earlier
   * faculty collides with it.  Every record `GenerateSessions` loads has its
   * session below the limit, so this covers every token `MailTokens` sends.
   */
  lemma MailedTokenAuthenticates(db: seq<FacultyRecord>, limit: nat, i: nat)
    requires i < |db| && db[i].session < limit
    ensures var r := Auth(Decimal(db[i].session), limit, true, db, None);
      r.granted.Some? && r.granted.value.session == db[i].session &&
      ((forall j :: 0 <= j < i ==> db[j].session != db[i].session) ==> r.granted == Some(db[i]))
  {
    TokenPassesGate(db[i].session, limit);
    var v := db[i].session;
    assert db[i].session == v;
    assert FirstFrom(db, v, 0).Some?;
    if forall j :: 0 <= j < i ==> db[j].session != v {
      assert FirstMatch(db, v, i);
    }
  }
}

=== FILE: monitor.dfy ===
/**
 * The attendance monitor (`Monitor`): the per-frame clock check
 * `time_check`, the QR payload router `processor`, `stop_monitor`, and the
 * loop of `monitor_cam` driven by a sequence of events.
 *
 * The clock is the parameter `now` (microseconds since midnight) with the
 * day of week `weekday`; the camera and decoder become the `Scan` of a frame.
 */
module Monitor {
  import opened Base
  import opened Text
  import opened Faculty
  import opened Student
  import opened Timetable
  import opened Session

  /** What one step of the monitor reported. */
  datatype Signal =
    | Warned                                      // `warn()` fired
    | FlushCalled                                 // `flush()` was called by the clock
    | Halted(report: Option<map<string, Batch>>)  // the monitor stopped, exporting the day's ledger if any

  /**
   * `stop_monitor`: the loop stops, a lecture still held by a host is
   * flushed, and a non-empty ledger is exported as the day's report (the
   * export raising on a key it cannot split).
   */
  function StopMonitor(s: State, cfg: Config, weekday: nat): (r: Result<(State, Option<map<string, Batch>>)>)
    ensures r.Ok? ==> !r.value.0.running
    ensures r.Ok? ==> (r.value.1.Some? <==> r.value.0.ledger != map[])
    ensures r.Ok? && r.value.1.Some? ==> r.value.1.value == r.value.0.ledger
    ensures Inv(s) && s.host.None? ==> r.Ok? && r.value.0 == s.(running := false)
    ensures s.host.Some? && Flush(s.(running := false), cfg, weekday).Err? ==> r.Err?
    ensures s.host.Some? && r.Ok? ==>
      Flush(s.(running := false), cfg, weekday) == Ok(r.value.0)
    ensures Inv(s) ==> r.Err? == Flush(s.(running := false), cfg, weekday).Err?
    ensures Inv(s) && r.Ok? ==> Inv(r.value.0) && !r.value.0.authenticated && r.value.0.host.None?
  {
    var stopped := s.(running := false);
    var closed := if stopped.host.Some? then Flush(stopped, cfg, weekday) else Ok(stopped);
    assert Inv(s) ==> Inv(stopped);
    assert Inv(s) && closed.Ok? ==> Inv(closed.value);
    match closed
    case Err(f) => Err(f)
    case Ok(t) =>
      if t.ledger == map[] then Ok((t, None))
      else if forall key :: key in t.ledger ==> ExportSplit(key).Ok? then Ok((t, Some(t.ledger)))
      else Err(ValueError)
  }

  /**
   * The loop's halt: `stop_monitor` runs, and the step reports its
   * exported ledger, or raises what it raised.
   */
  function Halt(s: State, cfg: Config, weekday: nat): (r: Result<(State, seq<Signal>)>)
    ensures r.Ok? <==> StopMonitor(s, cfg, weekday).Ok?
    ensures r.Ok? ==> r.value == (StopMonitor(s, cfg, weekday).value.0, [Halted(StopMonitor(s, cfg, weekday).value.1)])
    ensures r.Err? ==> r.fault == StopMonitor(s, cfg, weekday).fault
  {
    match StopMonitor(s, cfg, weekday)
    case Err(f) => Err(f)
    case Ok((t, report)) => Ok((t, [Halted(report)]))
  }

  /** `time_check`'s warning window: the warning instant lies 0 to 1 second ahead of `now`. */
  predicate WarnDue(hit: SlotHit, cfg: Config, now: int)
  {
    0 <= hit.end - cfg.warnMinutes * MinuteMicros - now <= SecondMicros
  }

  /** `time_check`'s flush window: the lecture ends 0 to 1 second after `now`. */
  predicate FlushDue(hit: SlotHit, now: int)
  {
    0 <= hit.end - now <= SecondMicros
  }

  /** The slot the clock is in, when the breakpoints put it in one. */
  predicate InSlot(cfg: Config, now: int)
  {
    LectureTime(cfg.breakpoints, now).Ok? && LectureTime(cfg.breakpoints, now).value.Some?
  }

  function SlotAt(cfg: Config, now: int): SlotHit
    requires InSlot(cfg, now)
  {
    LectureTime(cfg.breakpoints, now).value.value
  }

  /**
   * The attributes once `time_check` has read slot `hit`: a new slot records
   * its breakpoints and clears the warning; the lecture number follows.
   */
  function Enter(s: State, hit: SlotHit): (t: State)
    ensures t.lectureNumber == hit.index
    ensures t.warned <==> s.warned && hit.index == s.lectureNumber
    ensures t.lectureTime == if hit.index == s.lectureNumber then s.lectureTime else Some(hit.slot)
    ensures t.(warned := s.warned, lectureTime := s.lectureTime, lectureNumber := s.lectureNumber) == s
    ensures Inv(s) ==> Inv(t)
  {
    var moved := if hit.index != s.lectureNumber then s.(lectureTime := Some(hit.slot), warned := false) else s;
    moved.(lectureNumber := hit.index)
  }

  /** The warning fires at `now`: it is due in slot `hit` and not yet given for that slot. */
  predicate WarnFires(s: State, cfg: Config, hit: SlotHit, now: int)
  {
    !(s.warned && hit.index == s.lectureNumber) && WarnDue(hit, cfg, now)
  }

  /**
   * `time_check` at `now`.  Outside every slot the monitor stops.  Inside
   * slot `i`, a change of lecture number records the slot and clears the
   * warning; then the warning fires if it is due and not yet given, or else
   * the flush runs if it is due and not yet done.
   */
  function Tick(s: State, cfg: Config, now: int, weekday: nat): (r: Result<(State, seq<Signal>)>)
    ensures LectureTime(cfg.breakpoints, now).Err? ==> r.Err?
    ensures r.Ok? && !InSlot(cfg, now) ==>
      && LectureTime(cfg.breakpoints, now) == Ok(None)
      && |r.value.1| == 1 && r.value.1[0].Halted? && !r.value.0.running && r.value.0.warned == s.warned
    ensures r.Ok? && InSlot(cfg, now) ==>
      var hit := SlotAt(cfg, now);
      var t := r.value.0;
      && t.lectureNumber == hit.index
      && t.lectureTime == (if hit.index == s.lectureNumber then s.lectureTime else Some(hit.slot))
      && t.running == s.running
      && |r.value.1| <= 1
      && (t.warned <==> r.value.1 == [Warned] || (s.warned && hit.index == s.lectureNumber))
      && (r.value.1 == [Warned] ==> WarnFires(s, cfg, hit, now) && !t.flushed)
      && (r.value.1 == [FlushCalled] ==> !WarnFires(s, cfg, hit, now) && !s.flushed && FlushDue(hit, now) && !t.authenticated)
    ensures LectureTime(cfg.breakpoints, now) == Ok(None) ==> r == Halt(s, cfg, weekday)
    ensures InSlot(cfg, now) && WarnFires(s, cfg, SlotAt(cfg, now), now) ==>
      r == Ok((Warn(Enter(s, SlotAt(cfg, now))), [Warned]))
    ensures InSlot(cfg, now) && !WarnFires(s, cfg, SlotAt(cfg, now), now) && !s.flushed && FlushDue(SlotAt(cfg, now), now) ==>
      && (r.Ok? <==> Flush(Enter(s, SlotAt(cfg, now)), cfg, weekday).Ok?)
      && (r.Ok? ==> r.value == (Flush(Enter(s, SlotAt(cfg, now)), cfg, weekday).value, [FlushCalled]))
    ensures InSlot(cfg, now) && !WarnFires(s, cfg, SlotAt(cfg, now), now) && (s.flushed || !FlushDue(SlotAt(cfg, now), now)) ==>
      r == Ok((Enter(s, SlotAt(cfg, now)), []))
    ensures Inv(s) && r.Ok? ==> Inv(r.value.0)
  {
    match LectureTime(cfg.breakpoints, now)
    case Err(f) => Err(f)
    case Ok(None) => Halt(s, cfg, weekday)
    case Ok(Some(hit)) =>
      var t := Enter(s, hit);
      if !t.warned && WarnDue(hit, cfg, now) then Ok((Warn(t), [Warned]))
      else if !t.flushed && FlushDue(hit, now) then
        match Flush(t, cfg, weekday)
        case Err(f) => Err(f)
        case Ok(u) => Ok((u, [FlushCalled]))
      else Ok((t, []))
  }

  /**
   * The identity-payload branch of `processor`: `strip('][')`, drop quotes,
   * `split(', ')`, then `validate(fields[0], fields[1])`; fewer than two
   * fields is the IndexError `processor` catches, and gives nothing.
   */
  function Identify(cfg: Config, data: string): (r: Result<Option<StudentRecord>>)
    ensures |ParsePayload(data)| < 2 ==> r == Ok(None)
    ensures r.Ok? && r.value.Some? ==>
      && r.value.value in cfg.students
      && ParseInt(ParsePayload(data)[0]).Some?
      && Matches(r.value.value, ParseInt(ParsePayload(data)[0]).value, ParsePayload(data)[1])
    ensures r.Err? ==> |cfg.students| > 0 && |ParsePayload(data)| >= 2
    ensures |cfg.students| > 0 && |ParsePayload(data)| >= 2 && ParseInt(ParsePayload(data)[0]).None? ==> r.Err?
  {
    var fields := ParsePayload(data);
    if |fields| < 2 then Ok(None) else Find(cfg.students, fields[0], fields[1])
  }

  /**
   * `processor` on one decoded payload.  A token (digits, short enough)
   * while unauthenticated goes to `Faculty.auth`, whose remembered holder is
   * the shared host cell, and a granted record authenticates the lecture.
   * Digits while authenticated change nothing.  Anything else while
   * authenticated is an identity payload: a validated student is attended.
   */
  function Process(s: State, cfg: Config, data: string): (r: Result<State>)
    ensures r.Err? ==> s.authenticated && !IsDigitString(data) && Identify(cfg, data).Err?
    ensures r.Ok? ==>
      r.value.(authenticated := s.authenticated, host := s.host, attendees := s.attendees) == s
    ensures r.Ok? && r.value.authenticated != s.authenticated ==>
      && !s.authenticated && Gate(data, cfg.tokenLimit) && cfg.listed(data)
      && r.value.host == Auth(data, cfg.tokenLimit, true, cfg.faculty, s.host).granted
      && r.value.host.Some? && r.value.attendees == s.attendees
    ensures s.authenticated && IsDigitString(data) ==> r == Ok(s)
    ensures r.Ok? && r.value.attendees != s.attendees ==>
      && s.authenticated && r.value.authenticated && r.value.host == s.host
      && !IsDigitString(data) && Identify(cfg, data).Ok? && Identify(cfg, data).value.Some?
      && var x := Identify(cfg, data).value.value;
         x !in s.attendees && r.value.attendees == s.attendees + [x]
    ensures Inv(s) && r.Ok? ==> Inv(r.value)
  {
    if Gate(data, cfg.tokenLimit) && !s.authenticated then
      var o := Auth(data, cfg.tokenLimit, cfg.listed(data), cfg.faculty, s.host);
      var t := s.(host := o.holder);
      if o.granted.Some? then Ok(Authenticate(t, o.granted.value)) else Ok(t)
    else if IsDigitString(data) && s.authenticated then Ok(s)
    else if s.authenticated && !IsDigitString(data) then
      match Identify(cfg, data)
      case Err(f) => Err(f)
      case Ok(None) => Ok(s)
      case Ok(Some(x)) => Ok(Attend(s, x))
    else Ok(s)
  }

  /**
   * With no lecture running, the token mailed to faculty member `i` starts
   * one: the first record sharing its session becomes the host, and that is
   * record `i` itself unless an earlier one collides with it.
   */
  lemma MailedTokenStartsLecture(s: State, cfg: Config, i: nat)
    requires Inv(s) && !s.authenticated
    requires i < |cfg.faculty| && cfg.faculty[i].session < cfg.tokenLimit
    requires cfg.listed(Decimal(cfg.faculty[i].session))
    ensures var r := Process(s, cfg, Decimal(cfg.faculty[i].session));
      && r.Ok? && r.value.authenticated && r.value.host.Some?
      && r.value.host.value.session == cfg.faculty[i].session
      && ((forall j :: 0 <= j < i ==> cfg.faculty[j].session != cfg.faculty[i].session) ==>
            r.value.host == Some(cfg.faculty[i]))
  {
    MailedTokenAuthenticates(cfg.faculty, cfg.tokenLimit, i);
    TokenPassesGate(cfg.faculty[i].session, cfg.tokenLimit);
  }

  /**
   * During a lecture, scanning a student's identity code attends that
   * student, provided the store is strictly ascending by roll number and the
   * record's fields are `Plain`: printable ASCII with no quote, no backslash
   * and no ", ".
   */
  lemma ScanAttendsStudent(s: State, cfg: Config, k: nat)
    requires s.authenticated
    requires StrictlyAscending(cfg.students) && k < |cfg.students|
    requires forall j :: 0 <= j < |Values(cfg.students[k])| ==> Plain(Values(cfg.students[k])[j])
    ensures Process(s, cfg, IdentityPayload(cfg.students[k])) == Ok(Attend(s, cfg.students[k]))
  {
    var x := cfg.students[k];
    RenderNotDigits(Values(x));
    PayloadRoundTrip(Values(x));
    FindsEveryRecord(cfg.students, k);
    assert ParsePayload(IdentityPayload(x))[..2] == [x.roll, x.name];
  }

  /** A scanned student not yet attended is appended to the attendees. */
  lemma ScanAppends(s: State, cfg: Config, k: nat, t: State)
    requires s.authenticated
    requires StrictlyAscending(cfg.students) && k < |cfg.students| && cfg.students[k] !in s.attendees
    requires forall j :: 0 <= j < |Values(cfg.students[k])| ==> Plain(Values(cfg.students[k])[j])
    requires t == s.(attendees := s.attendees + [cfg.students[k]])
    ensures Process(s, cfg, IdentityPayload(cfg.students[k])) == Ok(t)
  {
    ScanAttendsStudent(s, cfg, k);
  }

  /**
   * A backslash in a student's name defeats the scan: `str(list)` doubles
   * it, the payload parse keeps it doubled, and no record has that name, so
   * the student is not attended.
   */
  lemma EscapedNameNotAttended(s: State, cfg: Config, k: nat, a: string, b: string)
    requires s.authenticated
    requires StrictlyAscending(cfg.students) && k < |cfg.students|
    requires cfg.students[k].name == a + "\\" + b && cfg.students[k].extra == []
    requires Plain(cfg.students[k].roll) && Plain(a) && Plain(b)
    ensures Process(s, cfg, IdentityPayload(cfg.students[k])) == Ok(s)
  {
    var db := cfg.students;
    var x := db[k];
    var w := a + "\\\\" + b;
    assert Values(x) == [x.roll, a + "\\" + b];
    BackslashDoubled(x.roll, a, b);
    RenderNotDigits(Values(x));
    assert IsDigitString(x.roll);
    var q := Value(x.roll);
    forall j | 0 <= j < |db|
      ensures !Matches(db[j], q, w)
    {
      if j < k {
        assert Value(db[j].roll) < q;
      } else if j > k {
        assert q < Value(db[j].roll);
      } else {
        assert |db[j].name| < |w|;
      }
    }
    assert Find(db, x.roll, w) == Ok(None);
  }

  /**
   * Scanning the same code twice in a row is the same as scanning it once:
   * a granted token leaves the lecture authenticated, so a rescan is "session
   * active"; a refused one leaves the same holder to refuse it again; and a
   * student already attended is not appended again.
   */
  lemma ProcessIdempotent(s: State, cfg: Config, data: string)
    requires Process(s, cfg, data).Ok?
    ensures Process(Process(s, cfg, data).value, cfg, data) == Process(s, cfg, data)
  {
    if Gate(data, cfg.tokenLimit) && !s.authenticated {
      var o := Auth(data, cfg.tokenLimit, cfg.listed(data), cfg.faculty, s.host);
      if o.granted.None? {
        var o' := Auth(data, cfg.tokenLimit, cfg.listed(data), cfg.faculty, o.holder);
        assert o' == AuthOutcome(None, o.holder);
      }
    }
  }

  /**
   * Two different students scanning their identity codes, one after the
   * other, during a lecture with no attendee yet: both are attended, in scan
   * order, and nothing else changes.
   */
  lemma TwoStudentsAttend(s: State, cfg: Config, k1: nat, k2: nat)
    requires s.authenticated && s.attendees == []
    requires StrictlyAscending(cfg.students) && k1 < |cfg.students| && k2 < |cfg.students| && k1 != k2
    requires forall j :: 0 <= j < |Values(cfg.students[k1])| ==> Plain(Values(cfg.students[k1])[j])
    requires forall j :: 0 <= j < |Values(cfg.students[k2])| ==> Plain(Values(cfg.students[k2])[j])
    ensures Process(s, cfg, IdentityPayload(cfg.students[k1])) == Ok(s.(attendees := [cfg.students[k1]]))
    ensures Process(s.(attendees := [cfg.students[k1]]), cfg, IdentityPayload(cfg.students[k2])) ==
      Ok(s.(attendees := [cfg.students[k1], cfg.students[k2]]))
  {
    var x1, x2 := cfg.students[k1], cfg.students[k2];
    AscendingDistinct(cfg.students, k1, k2);
    var s1, s2 := s.(attendees := [x1]), s.(attendees := [x1, x2]);
    assert s.attendees + [x1] == [x1];
    ScanAppends(s, cfg, k1, s1);
    assert s1.attendees + [x2] == [x1, x2];
    ScanAppends(s1, cfg, k2, s2);
  }

  /**
   * A lecture from start to flush: the token of faculty member `i` (no
   * earlier record sharing its session) starts it, two different students
   * scan their identity codes, and the clock reaching the slot's end (the
   * warning already given or not due) flushes it.  The flush files exactly
   * that host and those two attendees, in scan order, under the lecture's
   * key, and leaves the session idle.
   */
  lemma HappyPath(s: State, cfg: Config, i: nat, k1: nat, k2: nat, now: int, weekday: nat)
    requires Inv(s) && !s.authenticated
    requires i < |cfg.faculty| && cfg.faculty[i].session < cfg.tokenLimit
    requires forall j :: 0 <= j < i ==> cfg.faculty[j].session != cfg.faculty[i].session
    requires cfg.listed(Decimal(cfg.faculty[i].session))
    requires StrictlyAscending(cfg.students) && k1 < |cfg.students| && k2 < |cfg.students| && k1 != k2
    requires forall j :: 0 <= j < |Values(cfg.students[k1])| ==> Plain(Values(cfg.students[k1])[j])
    requires forall j :: 0 <= j < |Values(cfg.students[k2])| ==> Plain(Values(cfg.students[k2])[j])
    requires Subject(s, cfg, weekday).Ok? && '(' !in Subject(s, cfg, weekday).value
    requires s.lectureTime.Some? && '(' !in s.lectureTime.value.0 && '-' !in s.lectureTime.value.0
    requires InSlot(cfg, now) && SlotAt(cfg, now).index == s.lectureNumber
    requires !s.flushed && FlushDue(SlotAt(cfg, now), now) && !WarnFires(s, cfg, SlotAt(cfg, now), now)
    ensures Process(s, cfg, Decimal(cfg.faculty[i].session)).Ok?
    ensures var s1 := Process(s, cfg, Decimal(cfg.faculty[i].session)).value;
      && Process(s1, cfg, IdentityPayload(cfg.students[k1])).Ok?
      && var s2 := Process(s1, cfg, IdentityPayload(cfg.students[k1])).value;
      && Process(s2, cfg, IdentityPayload(cfg.students[k2])).Ok?
      && var s3 := Process(s2, cfg, IdentityPayload(cfg.students[k2])).value;
      && Tick(s3, cfg, now, weekday).Ok?
      && var (u, signals) := Tick(s3, cfg, now, weekday).value;
      && signals == [FlushCalled]
      && var key := LedgerKey(Subject(s, cfg, weekday).value, s.lectureTime);
      && key in u.ledger
      && u.ledger[key] == Batch(cfg.faculty[i], [cfg.students[k1], cfg.students[k2]])
      && !u.authenticated && u.host.None? && u.attendees == []
  {
    MailedTokenStartsLecture(s, cfg, i);
    var s1 := Process(s, cfg, Decimal(cfg.faculty[i].session)).value;
    assert s1 == s.(authenticated := true, host := Some(cfg.faculty[i]));
    TwoStudentsAttend(s1, cfg, k1, k2);
    var s3 := s1.(attendees := [cfg.students[k1], cfg.students[k2]]);
    assert Subject(s3, cfg, weekday) == Subject(s, cfg, weekday);
    FlushRecordsLecture(s3, cfg, weekday);
    var hit := SlotAt(cfg, now);
    assert Enter(s3, hit) == s3;
    assert !WarnFires(s3, cfg, hit, now);
  }

  /** What the decoder made of one camera frame. */
  datatype Scan =
    | NoCamera             // `decode` raised TypeError: no capture device
    | NoCode               // no QR code in the frame
    | Code(data: string)   // the first code's text

  /** One event of the monitor loop: a captured frame, or a press of the monitor button. */
  datatype Event =
    | Frame(now: int, weekday: nat, scan: Scan)
    | Trigger(weekday: nat)

  /**
   * The rest of a monitor iteration after `time_check`: the frame's scan.  A
   * missing camera ends the loop, whose exit calls `stop_monitor`; a code is
   * routed by `processor`.  Neither touches the warning or the lecture number.
   */
  function Sense(t: State, cfg: Config, weekday: nat, scan: Scan): (r: Result<(State, seq<Signal>)>)
    ensures r.Ok? ==> r.value.0.warned == t.warned && r.value.0.lectureNumber == t.lectureNumber
    ensures r.Ok? ==> CountWarned(r.value.1) == 0
    ensures scan.NoCamera? && r.Ok? ==> !r.value.0.running
    ensures scan.NoCamera? ==> r == Halt(t, cfg, weekday)
    ensures scan.NoCode? ==> r == Ok((t, []))
    ensures Inv(t) && r.Ok? ==> Inv(r.value.0)
  {
    match scan
    case NoCode => Ok((t, []))
    case NoCamera => Halt(t, cfg, weekday)
    case Code(data) =>
      (match Process(t, cfg, data)
       case Err(f) => Err(f)
       case Ok(u) => Ok((u, [])))
  }

  /**
   * One event.  While stopped, frames are not read and a trigger starts
   * the monitor; while running, a trigger stops it, and a frame is a
   * `time_check` followed, unless that stopped the loop, by its scan.
   */
  function Step(s: State, cfg: Config, e: Event): (r: Result<(State, seq<Signal>)>)
    ensures !s.running && e.Frame? ==> r == Ok((s, []))
    ensures !s.running && e.Trigger? ==> r == Ok((s.(running := true), []))
    ensures s.running && e.Trigger? ==> r == Halt(s, cfg, e.weekday)
    ensures e.Frame? && s.running && InSlot(cfg, e.now) && r.Ok? ==>
      var hit := SlotAt(cfg, e.now);
      var t := r.value.0;
      && t.lectureNumber == hit.index
      && CountWarned(r.value.1) <= (if s.warned && s.lectureNumber == hit.index then 0 else 1)
      && (t.warned <==> CountWarned(r.value.1) > 0 || (s.warned && hit.index == s.lectureNumber))
    ensures Inv(s) && r.Ok? ==> Inv(r.value.0)
  {
    match e
    case Trigger(weekday) =>
      if s.running then Halt(s, cfg, weekday)
      else Ok((s.(running := true), []))
    case Frame(now, weekday, scan) =>
      if !s.running then Ok((s, []))
      else
        match Tick(s, cfg, now, weekday)
        case Err(f) => Err(f)
        case Ok((t, signals)) =>
          assert CountWarned(signals) > 0 <==> signals == [Warned] by {
            if |signals| == 1 {
              assert signals[1..] == [];
            }
          }
          if !t.running then Ok((t, signals))
          else
            match Sense(t, cfg, weekday, scan)
            case Err(f) => Err(f)
            case Ok((u, more)) =>
              CountWarnedAppend(signals, more);
              Ok((u, signals + more))
  }

  /** How many times `warn()` fired. */
  function CountWarned(signals: seq<Signal>): nat
  {
    if |signals| == 0 then 0
    else (if signals[0] == Warned then 1 else 0) + CountWarned(signals[1..])
  }

  lemma {:induction false} CountWarnedAppend(a: seq<Signal>, b: seq<Signal>)
    ensures CountWarned(a + b) == CountWarned(a) + CountWarned(b)
    decreases |a|
  {
    if |a| == 0 {
      assert a + b == b;
    } else {
      assert (a + b)[1..] == a[1..] + b;
      CountWarnedAppend(a[1..], b);
    }
  }

  /**
   * The monitor over a sequence of events, with every signal in order.  The
   * first exception ends the run.
   */
  function Run(s: State, cfg: Config, events: seq<Event>): (r: Result<(State, seq<Signal>)>)
    ensures Inv(s) && r.Ok? ==> Inv(r.value.0)
    decreases |events|
  {
    if |events| == 0 then Ok((s, []))
    else
      match Step(s, cfg, events[0])
      case Err(f) => Err(f)
      case Ok((t, signals)) =>
        match Run(t, cfg, events[1..])
        case Err(f) => Err(f)
        case Ok((u, more)) => Ok((u, signals + more))
  }

  /** Every event is a frame captured inside slot `k`. */
  predicate AllInSlot(cfg: Config, events: seq<Event>, k: nat)
  {
    forall i :: 0 <= i < |events| ==>
      events[i].Frame? && InSlot(cfg, events[i].now) && SlotAt(cfg, events[i].now).index == k
  }

  /**
   * The warning fires at most once per slot: over frames that all fall in
   * slot `k` it fires at most once, and not at all if it was already given
   * for slot `k`.
   */
  lemma {:induction false} WarnOncePerSlot(s: State, cfg: Config, events: seq<Event>, k: nat)
    requires AllInSlot(cfg, events, k)
    requires Run(s, cfg, events).Ok?
    ensures CountWarned(Run(s, cfg, events).value.1) <= (if s.warned && s.lectureNumber == k then 0 else 1)
    decreases |events|
  {
    if |events| > 0 {
      var step := Step(s, cfg, events[0]);
      var t := step.value.0;
      assert AllInSlot(cfg, events[1..], k) by {
        forall i | 0 <= i < |events| - 1
          ensures events[1..][i] == events[i + 1]
        {
        }
      }
      WarnOncePerSlot(t, cfg, events[1..], k);
      CountWarnedAppend(step.value.1, Run(t, cfg, events[1..]).value.1);
    }
  }
}

=== FILE: session.dfy ===
/**
 * The session state of the attendance engine (`Attribute`) and the
 * transitions of `Utility`: `auth`, `attend`, `warn`, `flush` and the ledger
 * key built by `export_attendance`.
 *
 * The source keeps the remembered holder of `Faculty.auth` and the host of
 * the running lecture in one shared dict (the dict `auth` returns becomes
 * `host_faculty`, and `flush` clears it in place), so the model keeps a
 * single `host` cell for both.
 */
module Session {
  import opened Base
  import opened Faculty
  import opened Student
  import opened Timetable

  /** One lecture's entry in the day's ledger: copies of the host and the attendee list. */
  datatype Batch = Batch(host: FacultyRecord, attendees: seq<StudentRecord>)

  /** The mutable attributes the engine works on. */
  datatype State = State(
    authenticated: bool,              // isAuthenticated
    warned: bool,                     // isWarned
    flushed: bool,                    // isFlushed
    host: Option<FacultyRecord>,      // host_faculty, shared with Faculty.session_faculty
    attendees: seq<StudentRecord>,    // attendees
    ledger: map<string, Batch>,       // attendance_all
    lectureTime: Option<Slot>,        // lecture_time: `[]` or `[start, end]`
    lectureNumber: nat,               // lecture_number
    running: bool)                    // the monitor loop's `monitor` flag

  /** The fixed inputs of a run: configuration values and the files already read. */
  datatype Config = Config(
    tokenLimit: nat,                  // token_limit
    warnMinutes: int,                 // warning_period_minutes
    section: string,                  // batch_name
    faculty: seq<FacultyRecord>,      // Faculty.database after generate_sessions
    students: seq<StudentRecord>,     // Student.database after read_db
    breakpoints: seq<string>,         // the timing file's breakpoint list
    lectures: LectureTable,           // the lecture file
    listed: string -> bool)           // the substring pre-filter of Faculty.auth

  /** No attendee occurs twice. */
  predicate NoDuplicates(xs: seq<StudentRecord>)
  {
    forall i, j :: 0 <= i < j < |xs| ==> xs[i] != xs[j]
  }

  /**
   * What every reachable state satisfies: a lecture is authenticated exactly
   * while a host is held, attendees exist only during one, none occurs
   * twice, and every ledger key can be split by the Excel export.
   */
  predicate Inv(s: State)
  {
    && (s.authenticated <==> s.host.Some?)
    && (!s.authenticated ==> s.attendees == [])
    && NoDuplicates(s.attendees)
    && forall key :: key in s.ledger ==> ExportSplit(key).Ok?
  }

  /** The attributes as `Attribute.__init__` sets them, with the monitor not yet started. */
  function Initial(): (s: State)
    ensures Inv(s)
    ensures !s.authenticated && !s.warned && !s.flushed && s.host.None? && s.attendees == []
    ensures s.ledger == map[] && s.lectureTime.None? && s.lectureNumber == 0 && !s.running
  {
    State(false, false, false, None, [], map[], None, 0, false)
  }

  /** `Utility.warn`: marks the lecture warned and re-arms its flush. */
  function Warn(s: State): (r: State)
    ensures r.warned && !r.flushed
    ensures r.(warned := s.warned, flushed := s.flushed) == s
  {
    s.(warned := true, flushed := false)
  }

  /** `Utility.auth`: the lecture is authenticated with `rec` as its host; the warning flags are untouched. */
  function Authenticate(s: State, rec: FacultyRecord): (r: State)
    ensures r.authenticated && r.host == Some(rec)
    ensures r.(authenticated := s.authenticated, host := s.host) == s
  {
    s.(authenticated := true, host := Some(rec))
  }

  /**
   * `Utility.attend`: the attendee is appended unless already present.  The
   * source tests `str(x) in str(attendees)`, a substring test on the
   * renderings; membership is the test it stands for.
   */
  function Attend(s: State, x: StudentRecord): (r: State)
    ensures x in r.attendees
    ensures r.attendees == s.attendees || (x !in s.attendees && r.attendees == s.attendees + [x])
    ensures x in s.attendees ==> r == s
    ensures NoDuplicates(s.attendees) ==> NoDuplicates(r.attendees)
    ensures r.(attendees := s.attendees) == s
  {
    if x in s.attendees then s else s.(attendees := s.attendees + [x])
  }

  /**
   * The ledger key of `export_attendance`: the subject, a space, and
   * `str(lecture_time)` with `['`, `']` and `', '` replaced, which turns
   * `['09:00', '10:00']` into `(09:00-10:00)` and leaves the empty list as `[]`.
   */
  function LedgerKey(subject: string, lectureTime: Option<Slot>): (key: string)
    ensures |key| > |subject| + 1 && key[..|subject| + 1] == subject + " "
    ensures '(' in key[|subject| + 1..] <==> lectureTime.Some?
  {
    var tag := match lectureTime
      case None => "[]"
      case Some(slot) => "(" + slot.0 + "-" + slot.1 + ")";
    assert (subject + " " + tag)[|subject| + 1..] == tag;
    subject + " " + tag
  }

  /** The parts of a ledger key `Export.export` cuts out to name a worksheet. */
  datatype SheetName = SheetName(title: string, slot: string, start: string)

  /**
   * `Export.export` on one ledger key: the slot is the text from the first
   * `(`, the title the text before it less one character (Python's `key[:-1]`
   * when `(` comes first), the start the slot's text between `(` and its
   * first `-`.  A key with no `(`, or no `-` after it, raises ValueError.
   */
  function ExportSplit(key: string): (r: Result<SheetName>)
    ensures '(' !in key ==> r == Err(ValueError)
    ensures r.Ok? ==> 0 < |r.value.slot| <= |key| && r.value.slot[0] == '(' && key == key[..|key| - |r.value.slot|] + r.value.slot
    ensures r.Ok? ==> '(' !in key[..|key| - |r.value.slot|] && '-' in r.value.slot
    ensures r.Ok? <==> CharIndex(key, '(').Some? && '-' in key[CharIndex(key, '(').value..]
    ensures r.Ok? ==>
      && |r.value.start| + 1 < |r.value.slot|
      && r.value.slot[1..|r.value.start| + 1] == r.value.start
      && r.value.slot[|r.value.start| + 1] == '-' && '-' !in r.value.start
    ensures r.Ok? && |r.value.slot| < |key| ==>
      key == r.value.title + [key[|key| - |r.value.slot| - 1]] + r.value.slot
    ensures r.Ok? && |r.value.slot| == |key| ==> r.value.title == key[..|key| - 1]
  {
    match CharIndex(key, '(')
    case None => Err(ValueError)
    case Some(p) =>
      match SlotStart(key[p..])
      case None => Err(ValueError)
      case Some(start) =>
        SplitParts(key, p, start);
        Ok(SheetName(TitleBefore(key, p), key[p..], start))
  }

  /** The parts `ExportSplit` cuts at the first `(`, at position `p`, fit back together as its contract says. */
  lemma SplitParts(key: string, p: nat, start: string)
    requires p < |key| && key[p] == '(' && '(' !in key[..p]
    requires SlotStart(key[p..]) == Some(start)
    ensures var slot := key[p..];
      && |key| - |slot| == p && key == key[..p] + slot && '-' in slot
      && |start| + 1 < |slot| && slot[1..|start| + 1] == start && slot[|start| + 1] == '-' && '-' !in start
      && (p > 0 ==> key == TitleBefore(key, p) + [key[p - 1]] + slot)
      && (p == 0 ==> TitleBefore(key, p) == key[..|key| - 1])
  {
    assert key == key[..p] + key[p..];
    if p > 0 {
      assert key[..p] == TitleBefore(key, p) + [key[p - 1]];
    }
  }

  /** The text of a slot between its leading `(` and its first `-`, if it has one. */
  function SlotStart(slot: string): (r: Option<string>)
    requires 0 < |slot| && slot[0] == '('
    ensures r.Some? <==> '-' in slot
    ensures r.Some? ==>
      && |r.value| + 1 < |slot|
      && slot[1..|r.value| + 1] == r.value
      && slot[|r.value| + 1] == '-' && '-' !in r.value
  {
    match CharIndex(slot, '-')
    case None => None
    case Some(d) =>
      var start := slot[1..d];
      assert '-' !in start by {
        forall i | 0 <= i < |start|
          ensures start[i] != '-'
        {
          assert start[i] == slot[..d][i + 1];
        }
      }
      Some(start)
  }

  /** The worksheet title cut from `key` whose slot starts at `p`: the text before the character preceding it, or `key[:-1]` when `p == 0`. */
  function TitleBefore(key: string, p: nat): (r: string)
    requires p < |key|
    ensures p > 0 ==> key[..p] == r + [key[p - 1]]
    ensures p == 0 ==> r == key[..|key| - 1]
  {
    if p == 0 then key[..|key| - 1]
    else
      assert key[..p] == key[..p - 1] + [key[p - 1]];
      key[..p - 1]
  }

  /**
   * A key built from a subject with no `(` and a slot whose start has no
   * `-` splits back into that subject, the bracketed slot and its start.
   */
  lemma KeySplitRecovers(subject: string, slot: Slot)
    requires '(' !in subject && '(' !in slot.0 && '-' !in slot.0
    ensures ExportSplit(LedgerKey(subject, Some(slot))) ==
      Ok(SheetName(subject, "(" + slot.0 + "-" + slot.1 + ")", slot.0))
  {
    var tag := "(" + slot.0 + "-" + slot.1 + ")";
    var key := LedgerKey(subject, Some(slot));
    assert key == subject + " " + tag;
    var p := |subject| + 1;
    assert key[p] == '(' && '(' !in key[..p] by {
      assert key[..p] == subject + " ";
    }
    assert CharIndex(key, '(') == Some(p);
    assert key[p..] == tag;
    assert key[..p - 1] == subject;
    var d := |slot.0| + 1;
    assert tag[d] == '-' && '-' !in tag[..d] by {
      assert tag[..d] == "(" + slot.0;
    }
    assert CharIndex(tag, '-') == Some(d);
    assert tag[1..d] == slot.0;
  }

  /**
   * The key of a lecture flushed before `lecture_time` was ever set (the
   * first tick landed in slot 0, which equals the initial lecture number)
   * has no `(`: its export raises.
   */
  lemma SlotZeroKeyRaises(subject: string)
    requires '(' !in subject
    ensures ExportSplit(LedgerKey(subject, None)) == Err(ValueError)
  {
    var key := LedgerKey(subject, None);
    assert key == subject + " []";
    assert '(' !in key by {
      forall i | 0 <= i < |key|
        ensures key[i] != '('
      {
        if i < |subject| {
          assert key[i] == subject[i];
        }
      }
    }
  }

  /** The subject `export_attendance` files the lecture under; a missing one raises TypeError on `None + ' '`. */
  function Subject(s: State, cfg: Config, weekday: nat): (r: Result<string>)
    ensures r.Ok? <==> Lecture(cfg.lectures, cfg.section, weekday, s.lectureNumber).Ok? &&
                       Lecture(cfg.lectures, cfg.section, weekday, s.lectureNumber).value.Some?
    ensures r.Ok? ==> r.value == cfg.lectures[cfg.section][weekday][s.lectureNumber]
    ensures cfg.section !in cfg.lectures ==> r == Err(KeyError)
    ensures Lecture(cfg.lectures, cfg.section, weekday, s.lectureNumber) == Ok(None) ==> r == Err(TypeError)
  {
    match Lecture(cfg.lectures, cfg.section, weekday, s.lectureNumber)
    case Err(f) => Err(f)
    case Ok(None) => Err(TypeError)
    case Ok(Some(subject)) => Ok(subject)
  }

  /**
   * `Utility.flush` on the day `weekday`.  Unauthenticated, nothing happens.
   * Otherwise, with a host, the lecture is exported under its ledger key
   * (the export raising as `Subject` and `ExportSplit` say) and the ledger
   * entry for that key becomes copies of host and attendees; then the lecture
   * is marked flushed and host, attendees and authentication are cleared.
   */
  function Flush(s: State, cfg: Config, weekday: nat): (r: Result<State>)
    ensures !s.authenticated ==> r == Ok(s)
    ensures r.Err? ==>
      && s.authenticated && s.host.Some?
      && (Subject(s, cfg, weekday).Err? || ExportSplit(LedgerKey(Subject(s, cfg, weekday).value, s.lectureTime)).Err?)
    ensures (&& s.authenticated && s.host.Some? && Subject(s, cfg, weekday).Ok?
             && ExportSplit(LedgerKey(Subject(s, cfg, weekday).value, s.lectureTime)).Ok?) ==>
      && r.Ok?
      && r.value.ledger == s.ledger[LedgerKey(Subject(s, cfg, weekday).value, s.lectureTime) := Batch(s.host.value, s.attendees)]
    ensures r.Ok? && s.authenticated ==>
      && r.value.flushed && !r.value.authenticated && r.value.host.None? && r.value.attendees == []
      && r.value.warned == s.warned && r.value.lectureTime == s.lectureTime
      && r.value.lectureNumber == s.lectureNumber && r.value.running == s.running
      && (s.host.None? ==> r.value.ledger == s.ledger)
    ensures r.Ok? && Inv(s) ==> Inv(r.value)
  {
    if !s.authenticated then Ok(s)
    else
      var exported: Result<map<string, Batch>> :=
        if s.host.None? then Ok(s.ledger)
        else
          match Subject(s, cfg, weekday)
          case Err(f) => Err(f)
          case Ok(subject) =>
            var key := LedgerKey(subject, s.lectureTime);
            match ExportSplit(key)
            case Err(f) => Err(f)
            case Ok(_) => Ok(s.ledger[key := Batch(s.host.value, s.attendees)]);
      match exported
      case Err(f) => Err(f)
      case Ok(ledger) =>
        Ok(s.(ledger := ledger, flushed := true, authenticated := false, host := None, attendees := []))
  }

  /** A second flush right after a successful one changes nothing: the first left the lecture unauthenticated. */
  lemma FlushIdempotent(s: State, cfg: Config, weekday: nat, weekday': nat)
    requires Flush(s, cfg, weekday).Ok?
    ensures Flush(Flush(s, cfg, weekday).value, cfg, weekday') == Flush(s, cfg, weekday)
  {
  }

  /**
   * The ledger entry a successful flush writes holds exactly the host and
   * attendees of the lecture it closed, under a key that splits back into
   * the subject and the lecture's slot.
   */
  lemma FlushRecordsLecture(s: State, cfg: Config, weekday: nat)
    requires s.authenticated && s.host.Some? && s.lectureTime.Some?
    requires Subject(s, cfg, weekday).Ok?
    requires '(' !in Subject(s, cfg, weekday).value
    requires '(' !in s.lectureTime.value.0 && '-' !in s.lectureTime.value.0
    ensures Flush(s, cfg, weekday).Ok?
    ensures var key := LedgerKey(Subject(s, cfg, weekday).value, s.lectureTime);
      && key in Flush(s, cfg, weekday).value.ledger
      && Flush(s, cfg, weekday).value.ledger[key] == Batch(s.host.value, s.attendees)
      && ExportSplit(key) == Ok(SheetName(Subject(s, cfg, weekday).value,
           "(" + s.lectureTime.value.0 + "-" + s.lectureTime.value.1 + ")", s.lectureTime.value.0))
  {
    KeySplitRecovers(Subject(s, cfg, weekday).value, s.lectureTime.value);
  }
}

=== FILE: student.dfy ===
/**
 * The attendee store: `Student.read_db` sorts the records by their raw roll
 * string, and `Student.validate` binary-searches them comparing `int()` of
 * the roll.
 */
module Student {
  import opened Base
  import opened Text

  /** One record of the student file: roll number, name, then any extra fields. */
  datatype StudentRecord = StudentRecord(roll: string, name: string, extra: seq<string>)

  /** `list(record.values())`, the fields the identity QR code carries. */
  function Values(s: StudentRecord): seq<string>
  {
    [s.roll, s.name] + s.extra
  }

  /** The text of a student's identity QR code: `str(list(record.values()))`. */
  function IdentityPayload(s: StudentRecord): string
  {
    Render(Values(s))
  }

  // ---------------------------------------------------------------------
  // read_db: sorted(database, key=roll string)
  // ---------------------------------------------------------------------

  /** Ascending by raw roll string, the order `sorted` produces. */
  predicate RollTextSorted(db: seq<StudentRecord>)
  {
    forall i, j :: 0 <= i < j < |db| ==> LexLe(db[i].roll, db[j].roll)
  }

  lemma BelowAll(x: StudentRecord, t: seq<StudentRecord>)
    requires RollTextSorted(t) && |t| > 0 && LexLe(x.roll, t[0].roll)
    ensures forall j :: 0 <= j < |t| ==> LexLe(x.roll, t[j].roll)
  {
    forall j | 0 <= j < |t|
      ensures LexLe(x.roll, t[j].roll)
    {
      if j > 0 {
        LexTransitive(x.roll, t[0].roll, t[j].roll);
      }
    }
  }

  lemma HeadBelowInsert(h: StudentRecord, x: StudentRecord, t: seq<StudentRecord>, r: seq<StudentRecord>)
    requires LexLe(h.roll, x.roll)
    requires forall j :: 0 <= j < |t| ==> LexLe(h.roll, t[j].roll)
    requires multiset(r) == multiset(t) + multiset{x}
    ensures forall j :: 0 <= j < |r| ==> LexLe(h.roll, r[j].roll)
  {
    forall j | 0 <= j < |r|
      ensures LexLe(h.roll, r[j].roll)
    {
      assert r[j] in multiset(r);
      if r[j] != x {
        assert r[j] in multiset(t);
        var k :| 0 <= k < |t| && t[k] == r[j];
      }
    }
  }

  lemma ConsSorted(h: StudentRecord, r: seq<StudentRecord>)
    requires RollTextSorted(r)
    requires forall j :: 0 <= j < |r| ==> LexLe(h.roll, r[j].roll)
    ensures RollTextSorted([h] + r)
  {
    forall i, j | 0 <= i < j < |r| + 1
      ensures LexLe(([h] + r)[i].roll, ([h] + r)[j].roll)
    {
      assert ([h] + r)[j] == r[j - 1];
      if i > 0 {
        assert ([h] + r)[i] == r[i - 1];
      }
    }
  }

  /** One step of a stable sort: `x` goes before the first record not below it. */
  function Insert(x: StudentRecord, t: seq<StudentRecord>): (r: seq<StudentRecord>)
    requires RollTextSorted(t)
    ensures multiset(r) == multiset(t) + multiset{x}
    ensures RollTextSorted(r)
    decreases |t|
  {
    if |t| == 0 then [x]
    else if LexLe(x.roll, t[0].roll) then
      BelowAll(x, t);
      ConsSorted(x, t);
      [x] + t
    else
      LexTotal(x.roll, t[0].roll);
      assert t == [t[0]] + t[1..];
      var rest := Insert(x, t[1..]);
      HeadBelowInsert(t[0], x, t[1..], rest);
      ConsSorted(t[0], rest);
      [t[0]] + rest
  }

  /** `Student.read_db`: the records sorted by raw roll string, a permutation of the file. */
  function ReadDb(records: seq<StudentRecord>): (db: seq<StudentRecord>)
    ensures multiset(db) == multiset(records)
    ensures RollTextSorted(db)
    decreases |records|
  {
    if |records| == 0 then []
    else
      assert records == [records[0]] + records[1..];
      Insert(records[0], ReadDb(records[1..]))
  }

  /** Every roll is an ASCII digit string, so `int()` of it does not raise. */
  predicate NumericRolls(db: seq<StudentRecord>)
  {
    forall i :: 0 <= i < |db| ==> IsDigitString(db[i].roll)
  }

  /** Digit-string rolls, all of one length: the file shape under which text order is numeric. */
  predicate UniformRolls(db: seq<StudentRecord>)
  {
    NumericRolls(db) && forall i, j :: 0 <= i < |db| && 0 <= j < |db| ==> |db[i].roll| == |db[j].roll|
  }

  /** Ascending by `int(roll)`, the order `validate` assumes. */
  predicate NumericallySorted(db: seq<StudentRecord>)
  {
    NumericRolls(db) && forall i, j :: 0 <= i < j < |db| ==> Value(db[i].roll) <= Value(db[j].roll)
  }

  /** Strictly ascending by `int(roll)`: no roll number occurs twice. */
  predicate StrictlyAscending(db: seq<StudentRecord>)
  {
    NumericRolls(db) && forall i, j :: 0 <= i < j < |db| ==> Value(db[i].roll) < Value(db[j].roll)
  }

  /** In a strictly ascending store, two positions hold different rolls. */
  lemma AscendingDistinct(db: seq<StudentRecord>, i: nat, j: nat)
    requires StrictlyAscending(db) && i < |db| && j < |db| && i != j
    ensures db[i].roll != db[j].roll
  {
    if i < j {
      assert Value(db[i].roll) < Value(db[j].roll);
    } else {
      assert Value(db[j].roll) < Value(db[i].roll);
    }
  }

  /**
   * Sorting by roll string yields numeric order when every roll is a digit
   * string of one common length.
   */
  lemma ReadDbNumericOrder(records: seq<StudentRecord>)
    requires UniformRolls(records)
    ensures NumericallySorted(ReadDb(records))
  {
    var db := ReadDb(records);
    forall i | 0 <= i < |db|
      ensures IsDigitString(db[i].roll) && |db[i].roll| == |records[0].roll|
    {
      assert db[i] in multiset(records);
    }
    forall i, j | 0 <= i < j < |db|
      ensures Value(db[i].roll) <= Value(db[j].roll)
    {
      LexIsNumeric(db[i].roll, db[j].roll);
    }
  }

  /** A sequence without repeated elements holds each value at most once. */
  lemma {:induction false} NoRepeats(s: seq<StudentRecord>, x: StudentRecord)
    requires forall p, q :: 0 <= p < q < |s| ==> s[p] != s[q]
    ensures multiset(s)[x] <= 1
    decreases |s|
  {
    if |s| > 0 {
      assert s == [s[0]] + s[1..];
      NoRepeats(s[1..], x);
      if s[0] == x {
        assert x !in s[1..] by {
          forall k | 0 <= k < |s| - 1
            ensures s[1..][k] != x
          {
            assert s[1..][k] == s[k + 1];
          }
        }
      }
    }
  }

  /** Two positions holding one value make it occur twice. */
  lemma TwoCopies(s: seq<StudentRecord>, i: nat, j: nat)
    requires i < j < |s| && s[i] == s[j]
    ensures multiset(s)[s[i]] >= 2
  {
    assert s == s[..j] + s[j..];
    assert s[i] in s[..j];
    assert s[j] in s[j..];
  }

  /** A permutation of a sequence without repeated elements has none either. */
  lemma PermutationNoRepeats(s: seq<StudentRecord>, t: seq<StudentRecord>)
    requires forall p, q :: 0 <= p < q < |s| ==> s[p] != s[q]
    requires multiset(t) == multiset(s)
    ensures forall i, j :: 0 <= i < j < |t| ==> t[i] != t[j]
  {
    forall i, j | 0 <= i < j < |t|
      ensures t[i] != t[j]
    {
      if t[i] == t[j] {
        TwoCopies(t, i, j);
        NoRepeats(s, t[i]);
        assert false;
      }
    }
  }

  /**
   * A file of digit-string rolls of one length, no roll number repeated,
   * loads into a store strictly ascending by roll number: the order under
   * which the search finds every record.
   */
  lemma ReadDbStrict(records: seq<StudentRecord>)
    requires UniformRolls(records)
    requires forall i, j :: 0 <= i < j < |records| ==> Value(records[i].roll) != Value(records[j].roll)
    ensures StrictlyAscending(ReadDb(records))
  {
    ReadDbNumericOrder(records);
    var db := ReadDb(records);
    PermutationNoRepeats(records, db);
    forall i, j | 0 <= i < j < |db|
      ensures Value(db[i].roll) != Value(db[j].roll)
    {
      PositionsDiffer(records, db, i, j);
    }
  }

  /** Two positions of a permutation without repeats hold records from two positions of the file. */
  lemma PositionsDiffer(records: seq<StudentRecord>, db: seq<StudentRecord>, i: nat, j: nat)
    requires NumericRolls(records) && NumericRolls(db)
    requires forall k, l :: 0 <= k < l < |records| ==> Value(records[k].roll) != Value(records[l].roll)
    requires multiset(db) == multiset(records) && i < j < |db| && db[i] != db[j]
    ensures Value(db[i].roll) != Value(db[j].roll)
  {
    assert db[i] in multiset(records) && db[j] in multiset(records);
    var p :| 0 <= p < |records| && records[p] == db[i];
    var q :| 0 <= q < |records| && records[q] == db[j];
    if p < q {
      assert Value(records[p].roll) != Value(records[q].roll);
    } else {
      assert q < p;
      assert Value(records[q].roll) != Value(records[p].roll);
    }
  }

  /** On that store the search for roll 9 turns left at "10" and misses. */
  lemma NineMissed(a: StudentRecord, b: StudentRecord)
    requires a == StudentRecord("9", "A", []) && b.roll == "10"
    ensures Find([b, a], "9", "A") == Ok(None)
  {
    assert Value("10") == 10 && Value("9") == 9;
    assert FindIn([b, a], "9", "A", 0, -1) == Ok(None);
  }

  /** The string sort puts roll "10" before roll "9". */
  lemma TenSortsFirst(a: StudentRecord, b: StudentRecord)
    requires a.roll == "9" && b.roll == "10"
    ensures ReadDb([a, b]) == [b, a]
  {
    assert LexLe(b.roll, a.roll);
    assert ReadDb([b]) == [b];
    assert [a, b][1..] == [b];
  }

  /**
   * Without a common length the text order is not numeric: "10" sorts
   * before "9", and the search then misses the record with roll 9.
   */
  lemma MixedWidthRollsMisorder()
    ensures var db := ReadDb([StudentRecord("9", "A", []), StudentRecord("10", "B", [])]);
      && NumericRolls(db) && !NumericallySorted(db)
      && StudentRecord("9", "A", []) in db && Find(db, "9", "A") == Ok(None)
  {
    var a, b := StudentRecord("9", "A", []), StudentRecord("10", "B", []);
    TenSortsFirst(a, b);
    TenBeforeNine(a, b);
    NineMissed(a, b);
  }

  /** Roll "10" ahead of roll "9" is numeric text out of numeric order. */
  lemma TenBeforeNine(a: StudentRecord, b: StudentRecord)
    requires a.roll == "9" && b.roll == "10"
    ensures NumericRolls([b, a]) && !NumericallySorted([b, a])
  {
    assert Value("10") == 10 && Value("9") == 9;
    assert Value([b, a][0].roll) > Value([b, a][1].roll);
  }

  // ---------------------------------------------------------------------
  // validate: binary search on int(roll), name compared exactly
  // ---------------------------------------------------------------------

  /** The record has the queried roll number and exactly the queried name. */
  predicate Matches(rec: StudentRecord, q: nat, name: string)
  {
    ParseInt(rec.roll) == Some(q) && rec.name == name
  }

  /** No record outside the window `lo..hi` matches. */
  ghost predicate OnlyInside(db: seq<StudentRecord>, q: nat, name: string, lo: int, hi: int)
  {
    forall i :: 0 <= i < |db| && !(lo <= i <= hi) ==> !Matches(db[i], q, name)
  }

  /**
   * The recursion of `validate` over the window `lo..hi`, with the bounds
   * its comments describe: left half `mid-1`, right half `mid+1`.
   */
  function FindIn(db: seq<StudentRecord>, roll: string, name: string, lo: int, hi: int)
    : (r: Result<Option<StudentRecord>>)
    requires 0 <= lo && hi < |db| && lo <= hi + 1
    ensures r.Ok? && r.value.Some? ==>
      r.value.value in db && ParseInt(roll).Some? && Matches(r.value.value, ParseInt(roll).value, name)
    ensures lo <= hi && ParseInt(roll).None? ==> r.Err?
    ensures StrictlyAscending(db) && ParseInt(roll).Some? && OnlyInside(db, ParseInt(roll).value, name, lo, hi) ==>
      r.Ok? && (r.value.Some? <==> exists i :: 0 <= i < |db| && Matches(db[i], ParseInt(roll).value, name))
    decreases hi - lo + 1
  {
    if hi < lo then Ok(None)
    else
      var mid := (lo + hi) / 2;
      match (ParseInt(db[mid].roll), ParseInt(roll))
      case (Some(m), Some(q)) =>
        if m == q && db[mid].name == name then Ok(Some(db[mid]))
        else if m > q then
          assert StrictlyAscending(db) ==> forall i :: mid <= i < |db| ==> !Matches(db[i], q, name);
          FindIn(db, roll, name, lo, mid - 1)
        else
          assert StrictlyAscending(db) ==> forall i :: 0 <= i <= mid ==> !Matches(db[i], q, name);
          FindIn(db, roll, name, mid + 1, hi)
      case _ => Err(ValueError)
  }

  /**
   * `Student.validate(roll, name)` with corrected bounds.  An empty store
   * answers `None` without reading the query; otherwise `int()` of a
   * non-numeric roll raises.  On a store strictly ascending by roll number
   * it finds exactly the records with that number and name.
   */
  function Find(db: seq<StudentRecord>, roll: string, name: string): (r: Result<Option<StudentRecord>>)
    ensures |db| == 0 ==> r == Ok(None)
    ensures |db| > 0 && ParseInt(roll).None? ==> r.Err?
    ensures r.Ok? && r.value.Some? ==>
      r.value.value in db && ParseInt(roll).Some? && Matches(r.value.value, ParseInt(roll).value, name)
    ensures StrictlyAscending(db) && ParseInt(roll).Some? ==>
      r.Ok? && (r.value.Some? <==> exists i :: 0 <= i < |db| && Matches(db[i], ParseInt(roll).value, name))
  {
    if |db| == 0 then Ok(None) else FindIn(db, roll, name, 0, |db| - 1)
  }

  /** The binary search as an explicit loop over the window `lo..hi`. */
  method Validate(db: seq<StudentRecord>, roll: string, name: string) returns (r: Result<Option<StudentRecord>>)
    ensures r == Find(db, roll, name)
  {
    if |db| == 0 {
      return Ok(None);
    }
    var lo, hi := 0, |db| - 1;
    while lo <= hi
      invariant 0 <= lo && hi < |db| && lo <= hi + 1
      invariant FindIn(db, roll, name, lo, hi) == Find(db, roll, name)
      decreases hi - lo + 1
    {
      var mid := (lo + hi) / 2;
      var m, q := ParseInt(db[mid].roll), ParseInt(roll);
      if m.None? || q.None? {
        return Err(ValueError);
      }
      if m.value == q.value && db[mid].name == name {
        return Ok(Some(db[mid]));
      } else if m.value > q.value {
        hi := mid - 1;
      } else {
        lo := mid + 1;
      }
    }
    return Ok(None);
  }

  /**
   * Every record of a strictly ascending store is found by its own roll and
   * name, so scanning its identity QR code finds it.
   */
  lemma FindsEveryRecord(db: seq<StudentRecord>, k: nat)
    requires StrictlyAscending(db) && k < |db|
    ensures Find(db, db[k].roll, db[k].name) == Ok(Some(db[k]))
  {
    var q := Value(db[k].roll);
    assert Matches(db[k], q, db[k].name);
    var r := Find(db, db[k].roll, db[k].name);
    var x := r.value.value;
    var i :| 0 <= i < |db| && db[i] == x;
  }

  // ---------------------------------------------------------------------
  // validate as written: the window updates are swapped
  // ---------------------------------------------------------------------

  /** One call of `validate` as written. */
  datatype Probe =
    | Hit(rec: StudentRecord)
    | Miss
    | Recurse(lo: int, hi: int)
    | Raised(fault: Fault)
    | OutOfRange              // IndexError, which the caller swallows

  /** Python list indexing: a negative index counts from the end. */
  function PyIndex(n: nat, i: int): (r: Option<nat>)
    ensures r.Some? <==> -(n as int) <= i < n
    ensures r.Some? ==> r.value < n && r.value == i % n
  {
    if 0 <= i < n then Some(i as nat) else if i < 0 && 0 <= n + i then Some((n + i) as nat) else None
  }

  /**
   * One step of the literal recursion: `right=mid+1` when the probe is too
   * large and `left=mid-1` otherwise, with `mid` possibly negative.  Either
   * way the probed position stays inside the next window, which is why the
   * window need not shrink.
   */
  function LiteralStep(db: seq<StudentRecord>, roll: string, name: string, lo: int, hi: int): (r: Probe)
    ensures r.Miss? <==> hi < lo
    ensures r.Hit? ==> r.rec in db && ParseInt(roll).Some? && Matches(r.rec, ParseInt(roll).value, name)
    ensures r.OutOfRange? ==> lo <= hi && PyIndex(|db|, (lo + hi) / 2).None?
    ensures r.Raised? ==> r.fault == ValueError
    ensures r.Recurse? ==> lo <= hi && r.lo <= (lo + hi) / 2 <= r.hi && (r.lo == lo || r.hi == hi)
  {
    if hi >= lo then
      var mid := (lo + hi) / 2;
      match PyIndex(|db|, mid)
      case None => OutOfRange
      case Some(k) =>
        match (ParseInt(db[k].roll), ParseInt(roll))
        case (Some(m), Some(q)) =>
          if m == q && db[k].name == name then Hit(db[k])
          else if m > q then Recurse(lo, mid + 1)
          else Recurse(mid - 1, hi)
        case _ => Raised(ValueError)
    else
      Miss
  }

  /** The literal update never shrinks a window of width at most three. */
  lemma LiteralWindowNeverShrinks(db: seq<StudentRecord>, roll: string, name: string, lo: int, hi: int)
    requires lo <= hi <= lo + 2
    ensures LiteralStep(db, roll, name, lo, hi).Recurse? ==>
      LiteralStep(db, roll, name, lo, hi).hi - LiteralStep(db, roll, name, lo, hi).lo >= hi - lo
  {
  }

  /**
   * A two-record store, queried for its second record: the literal code
   * moves to the window `-1..1` and stays there (a RecursionError), while
   * the corrected search finds the record.
   */
  lemma LiteralValidateDiverges()
    ensures var db := [StudentRecord("1", "A", []), StudentRecord("2", "B", [])];
      && LiteralStep(db, "2", "B", 0, 1) == Recurse(-1, 1)
      && LiteralStep(db, "2", "B", -1, 1) == Recurse(-1, 1)
      && Find(db, "2", "B") == Ok(Some(db[1]))
  {
    var db := [StudentRecord("1", "A", []), StudentRecord("2", "B", [])];
    assert Value("1") == 1 && Value("2") == 2;
    assert StrictlyAscending(db);
    FindsEveryRecord(db, 1);
  }

  /**
   * A name holding a backslash is queried with it doubled (the identity
   * code carries the name's `repr`), so the one-record store never matches:
   * the window 0..0 slides to -2..0, where the next call repeats it.
   */
  lemma LiteralEscapedLoops()
    ensures var db := [StudentRecord("1", "A\\B", [])];
      && LiteralStep(db, "1", "A\\\\B", 0, 0) == Recurse(-1, 0)
      && LiteralStep(db, "1", "A\\\\B", -1, 0) == Recurse(-2, 0)
      && LiteralStep(db, "1", "A\\\\B", -2, 0) == Recurse(-2, 0)
  {
    assert Value("1") == 1;
  }

  /**
   * On the store the text sort makes of rolls 9 and 10, the first probe of
   * roll 9 meets "10", larger, and the literal `right=mid+1` keeps the
   * window 0..1 unchanged.
   */
  lemma LiteralTenNineLoops()
    ensures var db := [StudentRecord("10", "B", []), StudentRecord("9", "A", [])];
      && ReadDb([StudentRecord("9", "A", []), StudentRecord("10", "B", [])]) == db
      && LiteralStep(db, "9", "A", 0, 1) == Recurse(0, 1)
  {
    TenSortsFirst(StudentRecord("9", "A", []), StudentRecord("10", "B", []));
    assert Value("10") == 10 && Value("9") == 9;
  }

  /**
   * A roll number shared by several records: the store is sorted by roll
   * number, yet the search meets a namesake's roll in the middle, goes
   * right and misses the first record; as written, the window 0..2 repeats.
   */
  lemma RepeatedRollMissed()
    ensures var db := [StudentRecord("1", "A", []), StudentRecord("1", "B", []), StudentRecord("1", "C", [])];
      && NumericallySorted(db) && Matches(db[0], 1, "A")
      && Find(db, "1", "A") == Ok(None)
      && LiteralStep(db, "1", "A", 0, 2) == Recurse(0, 2)
  {
    var db := [StudentRecord("1", "A", []), StudentRecord("1", "B", []), StudentRecord("1", "C", [])];
    SharedRollSorted(db);
    SharedRollSearch(db);
  }

  /** Three records of roll 1 are sorted by roll number, and the first matches roll 1 and name A. */
  lemma SharedRollSorted(db: seq<StudentRecord>)
    requires db == [StudentRecord("1", "A", []), StudentRecord("1", "B", []), StudentRecord("1", "C", [])]
    ensures NumericallySorted(db) && Matches(db[0], 1, "A")
    ensures LiteralStep(db, "1", "A", 0, 2) == Recurse(0, 2)
  {
    assert Value("1") == 1;
  }

  /** The corrected search on three records of roll 1: B in the middle sends it right, past A. */
  lemma SharedRollSearch(db: seq<StudentRecord>)
    requires db == [StudentRecord("1", "A", []), StudentRecord("1", "B", []), StudentRecord("1", "C", [])]
    ensures Find(db, "1", "A") == Ok(None)
  {
    assert Value("1") == 1;
    assert FindIn(db, "1", "A", 2, 2) == Ok(None) by {
      assert FindIn(db, "1", "A", 3, 2) == Ok(None);
    }
  }
}

=== FILE: text.dfy ===
/**
 * String helpers with Python's meaning: ASCII digit strings and `int()`,
 * `str()` of a natural number, string ordering, and the `str(list)`
 * rendering of a QR identity payload together with its parse.
 */
module Text {
  import opened Base

  // ---------------------------------------------------------------------
  // Digits, int() and str()
  // ---------------------------------------------------------------------

  predicate IsDigit(c: char) { '0' <= c <= '9' }

  /** Every character is an ASCII digit (vacuously true of ""). */
  predicate Digits(s: string) { forall i :: 0 <= i < |s| ==> IsDigit(s[i]) }

  /** `s.isdigit()` for ASCII text: non-empty and all digits. */
  predicate IsDigitString(s: string) { |s| > 0 && Digits(s) }

  function DigitOf(c: char): nat
    requires IsDigit(c)
  {
    c as int - '0' as int
  }

  function CharOf(d: nat): char
    requires d < 10
  {
    ('0' as int + d) as char
  }

  /** The number a digit string denotes, read most significant digit first. */
  function Value(s: string): nat
    requires Digits(s)
    decreases |s|
  {
    if |s| == 0 then 0 else Value(s[..|s| - 1]) * 10 + DigitOf(s[|s| - 1])
  }

  /** `int(s)` for strings of ASCII digits; anything else raises. */
  function ParseInt(s: string): (r: Option<nat>)
    ensures r.Some? <==> IsDigitString(s)
  {
    if IsDigitString(s) then Some(Value(s)) else None
  }

  /** `str(n)` for a natural number: its shortest decimal rendering. */
  function Decimal(n: nat): (s: string)
    ensures IsDigitString(s)
    ensures Value(s) == n
    ensures n > 0 ==> s[0] != '0'
    ensures |s| == 1 || s[0] != '0'
    decreases n
  {
    if n < 10 then [CharOf(n)]
    else
      var s := Decimal(n / 10) + [CharOf(n % 10)];
      assert s[..|s| - 1] == Decimal(n / 10);
      s
  }

  /** A larger number never has a shorter decimal rendering. */
  lemma {:induction false} DecimalLengthMonotone(a: nat, b: nat)
    requires a <= b
    ensures |Decimal(a)| <= |Decimal(b)|
    decreases b
  {
    if a >= 10 {
      DecimalLengthMonotone(a / 10, b / 10);
    }
  }

  /** `int(str(n)) == n`. */
  lemma DecimalParses(n: nat)
    ensures ParseInt(Decimal(n)) == Some(n)
  {
  }

  // ---------------------------------------------------------------------
  // String order against numeric order
  // ---------------------------------------------------------------------

  /** Python's `a <= b` on strings: lexicographic by code point, a prefix first. */
  predicate LexLe(a: string, b: string)
    decreases |a|
  {
    |a| == 0 || (|b| > 0 && (a[0] < b[0] || (a[0] == b[0] && LexLe(a[1..], b[1..]))))
  }

  lemma LexTotal(a: string, b: string)
    ensures LexLe(a, b) || LexLe(b, a)
    decreases |a|
  {
    if |a| > 0 && |b| > 0 && a[0] == b[0] {
      LexTotal(a[1..], b[1..]);
    }
  }

  lemma LexTransitive(a: string, b: string, c: string)
    requires LexLe(a, b) && LexLe(b, c)
    ensures LexLe(a, c)
    decreases |a|
  {
    if |a| > 0 && a[0] == b[0] && b[0] == c[0] {
      LexTransitive(a[1..], b[1..], c[1..]);
    }
  }

  function Pow10(n: nat): (p: nat)
    ensures p > 0
  {
    if n == 0 then 1 else 10 * Pow10(n - 1)
  }

  lemma Pow10Mono(a: nat, b: nat)
    requires a <= b
    ensures Pow10(a) <= Pow10(b)
    decreases b
  {
    if a < b {
      Pow10Mono(a, b - 1);
    }
  }

  lemma ValueBelowPow10(s: string)
    requires Digits(s)
    ensures Value(s) < Pow10(|s|)
    decreases |s|
  {
    if |s| > 0 {
      ValueBelowPow10(s[..|s| - 1]);
    }
  }

  /** Reading a digit string from the front: first digit times its weight plus the rest. */
  lemma {:induction false} ValueFront(s: string)
    requires Digits(s) && |s| > 0
    ensures Value(s) == DigitOf(s[0]) * Pow10(|s| - 1) + Value(s[1..])
    decreases |s|
  {
    var n := |s|;
    if n > 1 {
      var init := s[..n - 1];
      ValueFront(init);
      assert init[1..] == s[1..][..n - 2];
      var d0, p, last := DigitOf(s[0]), Pow10(n - 2), DigitOf(s[n - 1]);
      calc {
        Value(s);
        Value(init) * 10 + last;
        (d0 * p + Value(init[1..])) * 10 + last;
        { assert (d0 * p) * 10 == d0 * (10 * p); }
        d0 * Pow10(n - 1) + (Value(s[1..][..n - 2]) * 10 + last);
        d0 * Pow10(n - 1) + Value(s[1..]);
      }
    }
  }

  /** Between digit strings of one length, a smaller first digit means a smaller number. */
  lemma FrontDecides(a: string, b: string)
    requires Digits(a) && Digits(b) && |a| == |b| > 0 && a[0] < b[0]
    ensures Value(a) < Value(b)
  {
    ValueFront(a);
    ValueFront(b);
    ValueBelowPow10(a[1..]);
    PlaceValueLess(DigitOf(a[0]), DigitOf(b[0]), Pow10(|a| - 1), Value(a[1..]), Value(b[1..]));
  }

  /** `da·p + ra < db·p + rb` when `da < db` and `ra < p`. */
  lemma PlaceValueLess(da: nat, db: nat, p: nat, ra: nat, rb: nat)
    requires da < db && ra < p
    ensures da * p + ra < db * p + rb
  {
    MulMono(da + 1, db, p);
    assert (da + 1) * p == da * p + p;
  }

  /** With equal first digits, two digit strings of one length compare as their tails. */
  lemma FrontTie(a: string, b: string)
    requires Digits(a) && Digits(b) && |a| == |b| > 0 && a[0] == b[0]
    ensures Value(a) <= Value(b) <==> Value(a[1..]) <= Value(b[1..])
  {
    ValueFront(a);
    ValueFront(b);
  }

  /**
   * For digit strings of one length, Python's string order is numeric order:
   * this is what makes a roll list sorted by raw string sorted by `int()`.
   */
  lemma {:induction false} LexIsNumeric(a: string, b: string)
    requires Digits(a) && Digits(b) && |a| == |b|
    ensures LexLe(a, b) <==> Value(a) <= Value(b)
    decreases |a|
  {
    if |a| > 0 {
      if a[0] < b[0] {
        FrontDecides(a, b);
      } else if b[0] < a[0] {
        FrontDecides(b, a);
      } else {
        FrontTie(a, b);
        LexIsNumeric(a[1..], b[1..]);
      }
    }
  }

  lemma MulMono(x: nat, y: nat, p: nat)
    requires x <= y
    ensures x * p <= y * p
  {
  }

  // ---------------------------------------------------------------------
  // QR identity payloads: str(list) and its parse
  // ---------------------------------------------------------------------

  /** A character `repr` writes as itself: printable ASCII. */
  predicate Printable(c: char) { ' ' <= c <= '~' }

  /** `'0123456789abcdef'[d]`. */
  function HexDigit(d: nat): char
    requires d < 16
  {
    if d < 10 then ('0' as int + d) as char else ('a' as int + d - 10) as char
  }

  /**
   * One character as `repr` writes it between the quotes `q`: the quote in
   * use and the backslash escaped, tab, newline and return by name, any
   * other ASCII control character as `\xNN`.  Characters above ASCII are
   * written as themselves.
   */
  function EscapeChar(c: char, q: char): (e: string)
    ensures |e| > 0
    ensures e == [c] <==> c != q && c != '\\' && (Printable(c) || c as int > 127)
  {
    if c == q || c == '\\' then ['\\', c]
    else if c == '\t' then "\\t"
    else if c == '\n' then "\\n"
    else if c == '\r' then "\\r"
    else if c as int < 32 || c as int == 127 then ['\\', 'x', HexDigit(c as int / 16), HexDigit(c as int % 16)]
    else [c]
  }

  function Escape(v: string, q: char): (e: string)
    ensures |e| >= |v|
  {
    if |v| == 0 then "" else EscapeChar(v[0], q) + Escape(v[1..], q)
  }

  /**
   * `repr` of a string: in double quotes when it holds a single quote and no
   * double quote, in single quotes otherwise, with its characters escaped.
   */
  function Quote(v: string): (r: string)
    ensures |r| >= |v| + 2
    ensures '\'' !in v ==> r[0] == '\'' && r[|r| - 1] == '\''
  {
    var q := if '\'' in v && '"' !in v then '"' else '\'';
    [q] + Escape(v, q) + [q]
  }

  /** A field between single quotes, as `repr` writes a plain one. */
  function Wrap(v: string): string { "'" + v + "'" }

  function WrapAll(vs: seq<string>): (ws: seq<string>)
    ensures |ws| == |vs|
    ensures forall i :: 0 <= i < |vs| ==> ws[i] == Wrap(vs[i])
  {
    if |vs| == 0 then [] else [Wrap(vs[0])] + WrapAll(vs[1..])
  }

  /** `", ".join(vs)`. */
  function Join(vs: seq<string>): string
    requires |vs| > 0
  {
    if |vs| == 1 then vs[0] else vs[0] + ", " + Join(vs[1..])
  }

  function QuoteAll(vs: seq<string>): (qs: seq<string>)
    ensures |qs| == |vs|
    ensures forall i :: 0 <= i < |vs| ==> qs[i] == Quote(vs[i])
  {
    if |vs| == 0 then [] else [Quote(vs[0])] + QuoteAll(vs[1..])
  }

  /** `str(vs)` for a list of strings, e.g. `['101', 'Jane Doe']`. */
  function Render(vs: seq<string>): string
  {
    "[" + (if |vs| == 0 then "" else Join(QuoteAll(vs))) + "]"
  }

  predicate IsBracket(c: char) { c == '[' || c == ']' }

  function TrimLeft(s: string): string
    decreases |s|
  {
    if |s| > 0 && IsBracket(s[0]) then TrimLeft(s[1..]) else s
  }

  function TrimRight(s: string): string
    decreases |s|
  {
    if |s| > 0 && IsBracket(s[|s| - 1]) then TrimRight(s[..|s| - 1]) else s
  }

  /** `s.strip('][')`. */
  function StripBrackets(s: string): string { TrimRight(TrimLeft(s)) }

  /** `s.replace("'", '')`. */
  function RemoveQuotes(s: string): (r: string)
    ensures '\'' !in r
    ensures |r| <= |s|
  {
    if |s| == 0 then ""
    else (if s[0] == '\'' then "" else [s[0]]) + RemoveQuotes(s[1..])
  }

  /** `s.split(', ')`: cut at every separator, scanning left to right. */
  function SplitComma(s: string): (parts: seq<string>)
    ensures |parts| > 0
    decreases |s|
  {
    if |s| < 2 then [s]
    else if s[0] == ',' && s[1] == ' ' then [""] + SplitComma(s[2..])
    else
      var rest := SplitComma(s[1..]);
      [[s[0]] + rest[0]] + rest[1..]
  }

  /** The identity payload parse: `s.strip('][').replace("'", '').split(', ')`. */
  function ParsePayload(s: string): (fields: seq<string>)
    ensures |fields| > 0
  {
    SplitComma(RemoveQuotes(StripBrackets(s)))
  }

  predicate HasSeparator(v: string)
  {
    exists i :: 0 <= i < |v| - 1 && v[i] == ',' && v[i + 1] == ' '
  }

  /** A field the payload format carries unchanged. */
  predicate Plain(v: string)
  {
    (forall i :: 0 <= i < |v| ==> Printable(v[i]) && v[i] != '\'' && v[i] != '\\') && !HasSeparator(v)
  }

  lemma RemoveQuotesAppend(a: string, b: string)
    ensures RemoveQuotes(a + b) == RemoveQuotes(a) + RemoveQuotes(b)
    decreases |a|
  {
    if |a| == 0 {
      assert a + b == b;
    } else {
      assert (a + b)[0] == a[0];
      assert (a + b)[1..] == a[1..] + b;
      RemoveQuotesAppend(a[1..], b);
    }
  }

  lemma RemoveQuotesPlain(v: string)
    requires '\'' !in v
    ensures RemoveQuotes(v) == v
    decreases |v|
  {
    if |v| > 0 {
      RemoveQuotesPlain(v[1..]);
    }
  }

  lemma WrapUnquotes(v: string)
    requires '\'' !in v
    ensures RemoveQuotes(Wrap(v)) == v
  {
    assert Wrap(v) == "'" + (v + "'");
    RemoveQuotesAppend("'", v + "'");
    RemoveQuotesAppend(v, "'");
    RemoveQuotesPlain(v);
  }

  lemma {:induction false} RemoveQuotesJoin(vs: seq<string>)
    requires |vs| > 0
    requires forall i :: 0 <= i < |vs| ==> '\'' !in vs[i]
    ensures RemoveQuotes(Join(WrapAll(vs))) == Join(vs)
    decreases |vs|
  {
    var qs := WrapAll(vs);
    WrapUnquotes(vs[0]);
    if |vs| > 1 {
      assert qs[1..] == WrapAll(vs[1..]);
      var tail := Join(qs[1..]);
      RemoveQuotesJoin(vs[1..]);
      assert Join(qs) == qs[0] + (", " + tail);
      RemoveQuotesAppend(qs[0], ", " + tail);
      RemoveQuotesAppend(", ", tail);
      assert RemoveQuotes(", ") == ", ";
    }
  }

  lemma {:induction false} JoinWrappedEnds(vs: seq<string>)
    requires |vs| > 0
    ensures var j := Join(WrapAll(vs)); |j| >= 2 && j[0] == '\'' && j[|j| - 1] == '\''
    decreases |vs|
  {
    var qs := WrapAll(vs);
    if |vs| > 1 {
      assert qs[1..] == WrapAll(vs[1..]);
      JoinWrappedEnds(vs[1..]);
    }
  }

  /** Stripping brackets off `[j]` stops at the quotes that open and close `j`. */
  lemma StripQuoted(j: string)
    requires |j| >= 2 && j[0] == '\'' && j[|j| - 1] == '\''
    ensures StripBrackets("[" + j + "]") == j
  {
    var s, t := "[" + j + "]", j + "]";
    assert s[0] == '[' && s[1..] == t;
    assert TrimLeft(s) == TrimLeft(t);
    assert t[0] == '\'';
    assert TrimLeft(t) == t;
    assert t[|t| - 1] == ']' && t[..|t| - 1] == j;
    assert TrimRight(t) == TrimRight(j);
  }

  lemma StripRendered(vs: seq<string>)
    requires |vs| > 0
    ensures StripBrackets("[" + Join(WrapAll(vs)) + "]") == Join(WrapAll(vs))
  {
    JoinWrappedEnds(vs);
    StripQuoted(Join(WrapAll(vs)));
  }

  lemma SeparatorFreeTail(v: string)
    requires |v| > 0 && !HasSeparator(v)
    ensures !HasSeparator(v[1..])
  {
    forall i | 0 <= i < |v[1..]| - 1
      ensures !(v[1..][i] == ',' && v[1..][i + 1] == ' ')
    {
      assert v[1..][i] == v[i + 1] && v[1..][i + 1] == v[i + 2];
    }
  }

  lemma {:induction false} SplitPlainField(v: string)
    requires !HasSeparator(v)
    ensures SplitComma(v) == [v]
    decreases |v|
  {
    if |v| >= 2 {
      assert !(v[0] == ',' && v[1] == ' ');
      SeparatorFreeTail(v);
      SplitPlainField(v[1..]);
      assert [v[0]] + v[1..] == v;
    }
  }

  /** A field with no separator in it is cut off exactly at the separator after it. */
  lemma {:induction false} SplitAtSeparator(v: string, rest: string)
    requires !HasSeparator(v)
    ensures SplitComma(v + ", " + rest) == [v] + SplitComma(rest)
    decreases |v|
  {
    var s := v + ", " + rest;
    if |v| == 0 {
      assert s[2..] == rest;
    } else {
      assert s[0] == v[0];
      assert s[1] == if |v| >= 2 then v[1] else ',';
      assert !(s[0] == ',' && s[1] == ' ');
      SeparatorFreeTail(v);
      assert s[1..] == v[1..] + ", " + rest;
      SplitAtSeparator(v[1..], rest);
      assert [v[0]] + v[1..] == v;
    }
  }

  lemma {:induction false} SplitJoin(vs: seq<string>)
    requires |vs| > 0
    requires forall i :: 0 <= i < |vs| ==> !HasSeparator(vs[i])
    ensures SplitComma(Join(vs)) == vs
    decreases |vs|
  {
    if |vs| == 1 {
      SplitPlainField(vs[0]);
    } else {
      SplitJoin(vs[1..]);
      assert vs[0] + ", " + Join(vs[1..]) == Join(vs);
      SplitAtSeparator(vs[0], Join(vs[1..]));
      assert [vs[0]] + vs[1..] == vs;
    }
  }

  lemma {:induction false} EscapeAppend(x: string, y: string, q: char)
    ensures Escape(x + y, q) == Escape(x, q) + Escape(y, q)
    decreases |x|
  {
    if |x| == 0 {
      assert x + y == y;
    } else {
      assert (x + y)[0] == x[0] && (x + y)[1..] == x[1..] + y;
      EscapeAppend(x[1..], y, q);
    }
  }

  lemma {:induction false} EscapeKeeps(v: string, q: char)
    requires forall i :: 0 <= i < |v| ==> Printable(v[i]) && v[i] != q && v[i] != '\\'
    ensures Escape(v, q) == v
    decreases |v|
  {
    if |v| > 0 {
      EscapeKeeps(v[1..], q);
      assert [v[0]] + v[1..] == v;
    }
  }

  /** `repr` writes a plain field as itself between single quotes. */
  lemma QuotePlain(v: string)
    requires Plain(v)
    ensures Quote(v) == Wrap(v)
  {
    assert '\'' !in v by {
      forall i | 0 <= i < |v|
        ensures v[i] != '\''
      {
      }
    }
    EscapeKeeps(v, '\'');
  }

  lemma QuoteAllPlain(vs: seq<string>)
    requires forall i :: 0 <= i < |vs| ==> Plain(vs[i])
    ensures QuoteAll(vs) == WrapAll(vs)
  {
    forall i | 0 <= i < |vs|
      ensures QuoteAll(vs)[i] == WrapAll(vs)[i]
    {
      QuotePlain(vs[i]);
    }
  }

  /** The payload parse inverts single-quoting and joining of fields with no quote and no ", ". */
  lemma ParseWrapped(ws: seq<string>)
    requires |ws| > 0
    requires forall i :: 0 <= i < |ws| ==> '\'' !in ws[i] && !HasSeparator(ws[i])
    ensures ParsePayload("[" + Join(WrapAll(ws)) + "]") == ws
  {
    StripRendered(ws);
    RemoveQuotesJoin(ws);
    SplitJoin(ws);
  }

  /**
   * The payload parse inverts the `str(list)` rendering for a non-empty list
   * of fields of printable ASCII with no quote, no backslash and no ", ".
   */
  lemma PayloadRoundTrip(vs: seq<string>)
    requires |vs| > 0
    requires forall i :: 0 <= i < |vs| ==> Plain(vs[i])
    ensures ParsePayload(Render(vs)) == vs
  {
    QuoteAllPlain(vs);
    forall i | 0 <= i < |vs|
      ensures '\'' !in vs[i]
    {
      assert Plain(vs[i]);
    }
    ParseWrapped(vs);
  }

  /** Two texts free of ", " stay free of it when joined, unless the join itself forms one. */
  lemma SeparatorConcat(x: string, y: string)
    requires !HasSeparator(x) && !HasSeparator(y)
    requires |x| == 0 || |y| == 0 || !(x[|x| - 1] == ',' && y[0] == ' ')
    ensures !HasSeparator(x + y)
  {
    var s := x + y;
    forall i | 0 <= i < |s| - 1
      ensures !(s[i] == ',' && s[i + 1] == ' ')
    {
      if i + 1 < |x| {
        assert s[i] == x[i] && s[i + 1] == x[i + 1];
      } else if i >= |x| {
        assert s[i] == y[i - |x|] && s[i + 1] == y[i - |x| + 1];
      }
    }
  }

  lemma EscapeBackslash(a: string, b: string, q: char)
    requires forall i :: 0 <= i < |a| ==> Printable(a[i]) && a[i] != q && a[i] != '\\'
    requires forall i :: 0 <= i < |b| ==> Printable(b[i]) && b[i] != q && b[i] != '\\'
    ensures Escape(a + "\\" + b, q) == a + "\\\\" + b
  {
    assert a + "\\" + b == a + ("\\" + b);
    EscapeAppend(a, "\\" + b, q);
    EscapeAppend("\\", b, q);
    assert Escape("\\", q) == "\\\\";
    EscapeKeeps(a, q);
    EscapeKeeps(b, q);
  }

  /** `repr` writes a backslash between plain text doubled. */
  lemma QuoteBackslash(a: string, b: string)
    requires Plain(a) && Plain(b)
    ensures Quote(a + "\\" + b) == Wrap(a + "\\\\" + b)
  {
    var v := a + "\\" + b;
    forall i | 0 <= i < |v|
      ensures v[i] != '\''
    {
      if i < |a| {
        assert v[i] == a[i];
      } else if i > |a| {
        assert v[i] == b[i - |a| - 1];
      }
    }
    EscapeBackslash(a, b, '\'');
  }

  lemma DoubledStaysParsable(a: string, b: string)
    requires Plain(a) && Plain(b)
    ensures '\'' !in a + "\\\\" + b && !HasSeparator(a + "\\\\" + b)
  {
    QuotePlain(a);
    QuotePlain(b);
    assert '\'' !in a && '\'' !in b;
    assert !HasSeparator("\\\\");
    SeparatorConcat(a, "\\\\");
    SeparatorConcat(a + "\\\\", b);
  }

  /**
   * A backslash in a field comes back doubled: `repr` escapes it and the
   * payload parse does not undo the escape.
   */
  lemma BackslashDoubled(r: string, a: string, b: string)
    requires Plain(r) && Plain(a) && Plain(b)
    ensures ParsePayload(Render([r, a + "\\" + b])) == [r, a + "\\\\" + b]
  {
    var v, w := a + "\\" + b, a + "\\\\" + b;
    QuoteBackslash(a, b);
    QuotePlain(r);
    assert QuoteAll([r, v]) == WrapAll([r, w]);
    DoubledStaysParsable(a, b);
    assert '\'' !in r && !HasSeparator(r);
    ParseWrapped([r, w]);
  }

  /** A rendered list is never mistaken for a numeric session token. */
  lemma RenderNotDigits(vs: seq<string>)
    ensures !IsDigitString(Render(vs))
  {
    assert Render(vs)[0] == '[';
  }
}

=== FILE: timetable.dfy ===
/**
 * The day's timetable: slots are adjacent pairs of "HH:MM" breakpoints
 * (`Timer`, `Scheduler.structure`), `Timer.lecture_time` finds the slot
 * strictly containing the current time, and `Scheduler.lecture` names the
 * subject taught in a slot.
 *
 * Time of day is an integer count of microseconds since midnight, the
 * resolution of Python's `datetime`.
 */
module Timetable {
  import opened Base
  import opened Text

  const SecondMicros: nat := 1_000_000
  const MinuteMicros: nat := 60 * SecondMicros
  const HourMicros: nat := 60 * MinuteMicros
  const DayMicros: nat := 24 * HourMicros

  /** A slot as the source keeps it: the two breakpoint strings `(start, end)`. */
  type Slot = (string, string)

  /**
   * `[(i, j) for i, j in zip(b[:-1], b[1:])]`: one slot per pair of adjacent
   * breakpoints, so each slot ends where the next begins.
   */
  function Slots(b: seq<string>): (p: seq<Slot>)
    ensures |p| == if |b| == 0 then 0 else |b| - 1
    ensures forall i :: 0 <= i < |p| ==> p[i] == (b[i], b[i + 1])
    ensures forall i :: 0 <= i < |p| - 1 ==> p[i].1 == p[i + 1].0
    decreases |b|
  {
    if |b| < 2 then [] else [(b[0], b[1])] + Slots(b[1..])
  }

  /** `s.index(c)`: the first position of `c`, or nothing (a ValueError). */
  function CharIndex(s: string, c: char): (r: Option<nat>)
    ensures r.Some? ==> r.value < |s| && s[r.value] == c && c !in s[..r.value]
    ensures r.None? ==> c !in s
    decreases |s|
  {
    if |s| == 0 then None
    else if s[0] == c then Some(0)
    else
      match CharIndex(s[1..], c)
      case None => None
      case Some(k) =>
        assert s[..k + 1] == [s[0]] + s[1..][..k];
        Some(k + 1)
  }

  lemma HourBound(h: nat, m: nat)
    requires h < 24 && m < 60
    ensures h * HourMicros + m * MinuteMicros < DayMicros
    ensures (h * HourMicros + m * MinuteMicros) % MinuteMicros == 0
  {
    assert h * HourMicros + m * MinuteMicros == (h * 60 + m) * MinuteMicros;
    assert h * 60 + m < 24 * 60;
  }

  /**
   * "HH:MM" to a time of day: split at the first colon, `int()` both halves,
   * and `datetime(hour=.., minute=..)`, which rejects an hour above 23 or a
   * minute above 59.
   */
  function ParseClock(s: string): (r: Result<nat>)
    ensures r.Ok? ==> r.value < DayMicros && r.value % MinuteMicros == 0
    ensures ':' !in s ==> r.Err?
  {
    match CharIndex(s, ':')
    case None => Err(ValueError)
    case Some(k) =>
      match (ParseInt(s[..k]), ParseInt(s[k + 1..]))
      case (Some(h), Some(m)) =>
        if h < 24 && m < 60 then
          HourBound(h, m);
          Ok(h * HourMicros + m * MinuteMicros)
        else Err(ValueError)
      case _ => Err(ValueError)
  }

  /** `'{:02d}'.format(n)`. */
  function Pad2(n: nat): string
    requires n < 100
  {
    [CharOf(n / 10), CharOf(n % 10)]
  }

  lemma Pad2Value(n: nat)
    requires n < 100
    ensures IsDigitString(Pad2(n)) && Value(Pad2(n)) == n
  {
    var s := Pad2(n);
    assert s[..1] == [CharOf(n / 10)];
    assert Value(s[..1]) == n / 10;
  }

  /** The "HH:MM" breakpoint text of an hour and minute, e.g. `Clock(9, 0)` is "09:00". */
  function Clock(h: nat, m: nat): string
    requires h < 24 && m < 60
  {
    Pad2(h) + ":" + Pad2(m)
  }

  /** Every well-formed "HH:MM" reads back as its hour and minute. */
  lemma ClockRoundTrip(h: nat, m: nat)
    requires h < 24 && m < 60
    ensures ParseClock(Clock(h, m)) == Ok(h * HourMicros + m * MinuteMicros)
  {
    var s := Clock(h, m);
    assert CharIndex(s, ':') == Some(2) by {
      assert s[0] != ':' && s[1] != ':' && s[2] == ':';
      assert s[1..][1..] == s[2..];
    }
    assert s[..2] == Pad2(h);
    assert s[3..] == Pad2(m);
    Pad2Value(h);
    Pad2Value(m);
  }

  /** A slot's start and end times, parsed in the order the source parses them. */
  function Bounds(slot: Slot): Result<(nat, nat)>
  {
    match (ParseClock(slot.0), ParseClock(slot.1))
    case (Ok(s), Ok(e)) => Ok((s, e))
    case (Err(f), _) => Err(f)
    case (_, Err(f)) => Err(f)
  }

  /** The slot parses and strictly contains `now`: `start < now < end`. */
  predicate Holds(slot: Slot, now: int)
  {
    Bounds(slot).Ok? && Bounds(slot).value.0 < now < Bounds(slot).value.1
  }

  /** The slot parses and does not contain `now`; the scan moves past it. */
  predicate Clear(slot: Slot, now: int)
  {
    Bounds(slot).Ok? && !(Bounds(slot).value.0 < now < Bounds(slot).value.1)
  }

  /** The slot's end time, its position in the list, and the slot itself. */
  datatype SlotHit = SlotHit(end: nat, index: nat, slot: Slot)

  /** `list.index(x)`: the first position holding `x`. */
  function SeqIndex(p: seq<Slot>, x: Slot): (r: nat)
    requires x in p
    ensures r < |p| && p[r] == x && forall j :: 0 <= j < r ==> p[j] != x
    decreases |p|
  {
    if p[0] == x then 0 else 1 + SeqIndex(p[1..], x)
  }

  /** The scan of `lecture_time` resumed at slot `i`, every earlier slot clear. */
  function ScanFrom(p: seq<Slot>, now: int, i: nat): (r: Result<Option<SlotHit>>)
    requires i <= |p|
    requires forall j :: 0 <= j < i ==> Clear(p[j], now)
    ensures r.Ok? && r.value.Some? ==>
      var h := r.value.value;
      && i <= h.index < |p| && h.slot == p[h.index]
      && Holds(p[h.index], now) && h.end == Bounds(p[h.index]).value.1
      && forall j :: 0 <= j < h.index ==> Clear(p[j], now)
    ensures r == Ok(None) <==> forall j :: 0 <= j < |p| ==> Clear(p[j], now)
    ensures r.Err? ==> exists j :: i <= j < |p| && Bounds(p[j]).Err? && forall l :: i <= l < j ==> Clear(p[l], now)
    decreases |p| - i
  {
    if i == |p| then Ok(None)
    else
      match Bounds(p[i])
      case Err(f) => Err(f)
      case Ok(be) =>
        if be.0 < now < be.1 then
          var k := SeqIndex(p, p[i]);
          assert Holds(p[i], now);
          assert !Clear(p[k], now);
          Ok(Some(SlotHit(be.1, k, p[i])))
        else
          ScanFrom(p, now, i + 1)
  }

  /**
   * `Timer.lecture_time` at time of day `now`: the first slot that strictly
   * contains `now`, as (its end, its index, the slot); nothing when no slot
   * does; a ValueError when a breakpoint reached by the scan is malformed.
   */
  function LectureTime(b: seq<string>, now: int): (r: Result<Option<SlotHit>>)
    ensures r.Ok? && r.value.Some? ==>
      var h := r.value.value;
      && h.index < |Slots(b)| && h.slot == (b[h.index], b[h.index + 1])
      && Holds(h.slot, now) && h.end == Bounds(h.slot).value.1
      && forall j :: 0 <= j < h.index ==> Clear(Slots(b)[j], now)
    ensures r == Ok(None) <==> forall j :: 0 <= j < |Slots(b)| ==> Clear(Slots(b)[j], now)
    ensures r.Err? ==> exists j :: 0 <= j < |Slots(b)| && Bounds(Slots(b)[j]).Err? && forall l :: 0 <= l < j ==> Clear(Slots(b)[l], now)
  {
    var p := Slots(b);
    var r := ScanFrom(p, now, 0);
    assert r.Ok? && r.value.Some? ==> r.value.value.slot == (b[r.value.value.index], b[r.value.value.index + 1]);
    r
  }

  /** Every breakpoint parses, strictly increasing through the day. */
  predicate WellFormedDay(b: seq<string>)
  {
    && (forall j :: 0 <= j < |b| ==> ParseClock(b[j]).Ok?)
    && (forall j, k :: 0 <= j < k < |b| ==> ParseClock(b[j]).value < ParseClock(b[k]).value)
  }

  lemma SlotBounds(b: seq<string>, j: nat)
    requires WellFormedDay(b) && j + 1 < |b|
    ensures Bounds(Slots(b)[j]) == Ok((ParseClock(b[j]).value, ParseClock(b[j + 1]).value))
  {
  }

  /**
   * On a well-formed day, any time strictly between breakpoints `k` and
   * `k + 1` lies in slot `k`, which ends at breakpoint `k + 1`.
   */
  lemma BetweenBreakpoints(b: seq<string>, k: nat, now: int)
    requires WellFormedDay(b) && k + 1 < |b|
    requires ParseClock(b[k]).value < now < ParseClock(b[k + 1]).value
    ensures LectureTime(b, now) == Ok(Some(SlotHit(ParseClock(b[k + 1]).value, k, (b[k], b[k + 1]))))
  {
    var p := Slots(b);
    forall j | 0 <= j < |p|
      ensures Bounds(p[j]).Ok?
    {
      SlotBounds(b, j);
    }
    SlotBounds(b, k);
    assert Holds(p[k], now);
    var r := LectureTime(b, now);
    assert r.Ok? && r.value.Some?;
    var h := r.value.value;
    assert !Clear(p[k], now);
    SlotBounds(b, h.index);
  }

  /**
   * On a well-formed day the instant of a breakpoint itself lies in no slot:
   * containment is strict at both ends, so the scan reports no lecture.
   */
  lemma BreakpointInstantHasNoSlot(b: seq<string>, i: nat)
    requires WellFormedDay(b) && i < |b|
    ensures LectureTime(b, ParseClock(b[i]).value) == Ok(None)
  {
    var p := Slots(b);
    var now := ParseClock(b[i]).value;
    forall j | 0 <= j < |p|
      ensures Clear(p[j], now)
    {
      SlotBounds(b, j);
      if j < i {
        assert j + 1 == i || ParseClock(b[j + 1]).value < now;
      }
    }
  }

  /** "09:00", "10:00" and "11:15" read back as their times of day. */
  lemma ExampleClocks(b: seq<string>)
    requires b == [Clock(9, 0), Clock(10, 0), Clock(11, 15)]
    ensures ParseClock(b[0]) == Ok(9 * HourMicros)
    ensures ParseClock(b[1]) == Ok(10 * HourMicros)
    ensures ParseClock(b[2]) == Ok(11 * HourMicros + 15 * MinuteMicros)
  {
    assert ParseClock(b[0]) == Ok(9 * HourMicros) by {
      ClockRoundTrip(9, 0);
    }
    assert ParseClock(b[1]) == Ok(10 * HourMicros) by {
      ClockRoundTrip(10, 0);
    }
    ClockRoundTrip(11, 15);
  }

  /** The example day parses and increases. */
  lemma ExampleDay(b: seq<string>)
    requires b == [Clock(9, 0), Clock(10, 0), Clock(11, 15)]
    ensures WellFormedDay(b)
  {
    ExampleClocks(b);
    IncreasingThree(b);
  }

  /** Three breakpoints that parse and increase make a well-formed day. */
  lemma IncreasingThree(b: seq<string>)
    requires |b| == 3 && ParseClock(b[0]).Ok? && ParseClock(b[1]).Ok? && ParseClock(b[2]).Ok?
    requires ParseClock(b[0]).value < ParseClock(b[1]).value < ParseClock(b[2]).value
    ensures WellFormedDay(b)
  {
  }

  /**
   * A timetable whose breakpoints read 09:00, 10:00 and 11:15: 09:30 falls
   * in slot 0, ending 10:00; the breakpoint 10:00 itself falls in no slot;
   * 10:15 falls in slot 1, ending 11:15.
   */
  lemma TimetableExample(b: seq<string>)
    requires b == [Clock(9, 0), Clock(10, 0), Clock(11, 15)]
    ensures LectureTime(b, 9 * HourMicros + 30 * MinuteMicros) == Ok(Some(SlotHit(10 * HourMicros, 0, (b[0], b[1]))))
    ensures LectureTime(b, 10 * HourMicros) == Ok(None)
    ensures LectureTime(b, 10 * HourMicros + 15 * MinuteMicros) ==
      Ok(Some(SlotHit(11 * HourMicros + 15 * MinuteMicros, 1, (b[1], b[2]))))
  {
    ExampleClocks(b);
    ExampleDay(b);
    assert LectureTime(b, 9 * HourMicros + 30 * MinuteMicros) == Ok(Some(SlotHit(10 * HourMicros, 0, (b[0], b[1])))) by {
      BetweenBreakpoints(b, 0, 9 * HourMicros + 30 * MinuteMicros);
    }
    assert LectureTime(b, 10 * HourMicros) == Ok(None) by {
      BreakpointInstantHasNoSlot(b, 1);
    }
    BetweenBreakpoints(b, 1, 10 * HourMicros + 15 * MinuteMicros);
  }

  /** Section name to the weekdays of the lecture file, in file order, each a list of subjects. */
  type LectureTable = map<string, seq<seq<string>>>

  /**
   * `Scheduler.lecture(section, index)`: the `weekday`-th day listed for the
   * section, then its `index`-th subject.  A missing section raises
   * KeyError; a day or lecture past the end of its list gives nothing.
   */
  function Lecture(table: LectureTable, section: string, weekday: nat, index: nat): (r: Result<Option<string>>)
    ensures r.Err? <==> section !in table
    ensures r.Ok? && r.value.Some? <==>
      section in table && weekday < |table[section]| && index < |table[section][weekday]|
    ensures r.Ok? && r.value.Some? ==> r.value.value == table[section][weekday][index]
  {
    if section !in table then Err(KeyError)
    else if weekday < |table[section]| && index < |table[section][weekday]| then
      Ok(Some(table[section][weekday][index]))
    else Ok(None)
  }
}
